=== FILE: README.md ===
# Mining-investment ledger in Dafny

This project models the ledger logic of a mining-investment backend. The backend is an
Express/Mongoose service. Users hold whole mining machines ("unit holdings") or shares of
share-based catalog machines. The Balance store is keyed by user: the schema does not make
`user` unique, but every path that creates a Balance looks one up first. A Balance has two
buckets, `adminAdd` and `miningBalance`, and a stored `totalBalance` that the controllers keep equal to their sum.
Every money movement is logged as a Transaction record.

Each request handler becomes a pure function from a `Store.State` (the whole database as
one immutable value) to `Ok(new state)` or `Err(failure)`. An error carries no state, so a
failed handler leaves the store exactly as it was. Money is `real`, time is integer
milliseconds, and a day is 86 400 000 ms.

Modules, following the source layout:

- `Common`, `BalanceModel`, `TransactionModel`, `UserMachineModel`, `MiningMachineModel`,
  `SharePurchaseModel`: the five Mongoose schemas, with their enums, defaults and
  required-field validation.
- `Store`: the database state and fresh holding ids.
- `Retry`: the bounded retry wrapper.
- `UnitTrade`: buying and selling whole machines.
- `ShareConfig`: the share-configuration validator and the share helper methods.
- `ShareMarket`: share arithmetic, availability, share purchase and the 24-hour share-profit run.
- `WithdrawalFlow`: the routed withdrawal request and decision.
- `BalanceOps`: the balance controller, with its bucket credit, mining-first approval and lazy Balance creation.
- `Accrual`: the daily cron run.
- `ProfitOps`: the per-holding profit endpoints.
- `Assignment`: administrative assignment and removal of unit holdings.

Mongoose's strict mode keeps only declared fields on save. The model makes that explicit in
two places:

- Transaction drafts (`TransactionModel.TxDraft`) carry `balanceBefore`, `balanceAfter` and
  `metadata`, but `TransactionModel.Persist` stores only the declared fields.
- A unit holding's `lastProfitUpdate` is not declared on the UserMachine schema.
  `UserMachineModel.StoredAsWritten` drops it on save.

The model follows what the code does, which in places is not what the system's own
descriptions of its behaviour suggest:

- Accrual runs daily. At 30 or more whole days it adds exactly one monthly profit, however
  long the holding waited; it does not pay once per elapsed period.
- The cron run is one database transaction, so a throw on one holding discards the whole
  run rather than skipping that holding.
- Unit accrual in the cron job touches no Balance. Only the per-holding endpoint credits `miningBalance`.
- The routed withdrawal approval drains `adminAdd` first. The mining-first drain exists only in the balance controller.
- A share purchase creates no share holding. Share availability counts purchase records, not shares.
- A failed notification mail rolls a machine assignment back, because the mail is sent before the commit.
- A unit holding can be hard-deleted even after profit has accrued on it.
- Transaction kinds and statuses are the schema's enums (`withdrawal`, `profit`,
  `MACHINE_PURCHASE`, `MACHINE_SALE`, `SHARE_PURCHASE`, `SHARE_PROFIT`), as the Transaction schema spells them.

## Model

| member | source | states |
|---|---|---|
| Common.DaysBetween | cronJobs.js:26-28 | the elapsed day count is the floor of elapsed ms over a day: `days*DAY <= now-last < (days+1)*DAY`, non-negative exactly when time has not gone backwards |
| BalanceModel.Zeroed | model/Balance.js:10-21 | a defaulted Balance has all three amounts zero and satisfies the sum invariant |
| BalanceModel.WithBuckets | controller/withdrawalContoller.js:149-150 | writing both buckets recomputes the total as their sum, so the result is consistent whatever the input was |
| BalanceModel.AddToAdmin | controller/usermachine/transactionController.js:105-107 | moving `adminAdd` by a signed delta leaves `miningBalance` alone, keeps the sum invariant, and moves a consistent total by exactly the delta |
| BalanceModel.AddToMining | cronJobs.js:79-81 | moving `miningBalance` by a delta leaves `adminAdd` alone, keeps the invariant, and moves a consistent total by exactly the delta |
| BalanceModel.SumNotEnforcedBySchema | model/Balance.js:10-21 | some schema-valid Balance violates `total == adminAdd + miningBalance`: only controllers keep the invariant |
| TransactionModel.ParseType | model/withdrawals.js:17-21 | a type name is accepted exactly when it is one of the six enum names, and it maps back to the type with that name |
| TransactionModel.ParseStatus | model/withdrawals.js:22-26 | a status name is accepted exactly when it is one of the four enum names |
| TransactionModel.TypeNamesRoundTrip | model/withdrawals.js:17-21 | every type's name parses back to that type |
| TransactionModel.StatusNamesRoundTrip | model/withdrawals.js:22-26 | every status's name parses back to that status |
| TransactionModel.NewRecord | model/withdrawals.js:3-36 | a new record carries the given user, amount, type and status and no admin decision (`processedBy`, `processedAt`, comment absent) |
| TransactionModel.SnapshotNotStored | model/withdrawals.js:3-40 | two drafts differing only in balance snapshot or metadata persist to the same record: those fields are not declared |
| TransactionModel.Decide | controller/withdrawalContoller.js:154-159 | a decision sets the status, comment, `processedBy` and `processedAt` and keeps user, amount, type and date |
| UserMachineModel.NewHolding | model/UserMAchine.js:14-26 | a new holding is active with zero accumulated profit, dated now, with no stored clock |
| UserMachineModel.StoredAsWritten | model/UserMAchine.js:3-66 | saving under the declared schema loses `lastProfitUpdate`, so the accrual clock falls back to `assignedDate`; profit and status are kept |
| UserMachineModel.SnapshotRequired | model/UserMAchine.js:28-56 | a holding without the copied machine fields fails validation |
| MiningMachineModel.WithDefaults | model/MiningMachine.js:42-61 | a machine given only required fields is not share-based, has share price 50, 380 total and 380 available shares (available equals total) and profit per share 9.21 |
| MiningMachineModel.SnapshotOf | controller/usermachine/transactionController.js:111-128 | the terms copied into a holding carry the machine's price and monthly profit and are schema-valid when the machine is |
| MiningMachineModel.AvailabilityUntied | model/MiningMachine.js:50-61 | a schema-valid machine may claim more available shares than total shares |
| SharePurchaseModel.NewStake | model/SharePurchase.js:4-44 | a new stake is active, dated now on both clocks, carries the given owner, machine and share count, and is schema-valid when both ids are present and it holds at least one share (`min: 1`) |
| SharePurchaseModel.StakeProfit | controller/shareMachineController.js:109 | a stake with non-negative share count and rate earns a non-negative monthly profit |
| Store.AddUnits | controller/usermachine/transactionController.js:111-128 | inserting `count` copies under ids `first..first+count-1` adds exactly those keys, all bound to the new holding, and keeps every other holding |
| Store.AddUnitsGrowsByCount | controller/usermachine/machineController.js:37-49 | with fresh ids the holding collection grows by exactly `count` |
| Retry.RunFrom | controller/usermachine/transactionController.js:18-50 | from attempt `k`, every attempt before the last failed transiently, the loop stops at the first success, at the first non-transient error or at attempt 3, returns the last attempt's outcome, and sleeps `1000*j` before attempt `j+1` |
| Retry.ExecuteWithRetry | controller/usermachine/transactionController.js:15-53 | between 1 and 3 attempts; every earlier attempt threw a transient error; the result is the last attempt's value or error; the pauses are 1000, 2000 ms |
| Retry.FirstSuccessWins | controller/usermachine/transactionController.js:33 | if attempt `k` succeeds after `k-1` transient failures, exactly `k` attempts run and its value is returned |
| Retry.NonTransientNotRetried | controller/usermachine/transactionController.js:38-44 | a non-transient first error is rethrown after one attempt with no pause |
| Retry.ExhaustedAfterThree | controller/usermachine/transactionController.js:10-52 | three transient failures make exactly three attempts, rethrow the third error, and pause 1000 then 2000 ms |
| Retry.BackoffIsLinear | controller/usermachine/transactionController.js:46 | the pauses strictly increase, by exactly 1000 ms per attempt (linear, not exponential) |
| UnitTrade.PurchaseWork | controller/usermachine/transactionController.js:66-128 | succeeds exactly when user, machine and Balance exist and `totalBalance >= price*quantity` (equality allowed); otherwise NotFound or InsufficientFunds. On success `adminAdd` falls by the cost, mining is unchanged, total is recomputed, exactly `quantity` fresh active holdings copying the machine terms appear, one completed purchase record with `after = before - cost` is logged, and no other Balance changes; apart from Balances, holdings, the id counter and the log, the store (users, email index, catalog, stakes) is unchanged |
| UnitTrade.PurchasedHoldingsValid | controller/usermachine/transactionController.js:110-128 | for a well-formed request on a valid catalog machine, every holding the purchase creates passes the UserMachine schema |
| UnitTrade.PurchaseAndAssign | controller/usermachine/transactionController.js:55-167 | an omitted quantity means one unit; missing ids or `quantity < 1` give ValidationError; a failing unit of work is returned unretried; a feasible purchase fails only when all three attempts hit a write conflict, and any success equals the unit of work's result |
| UnitTrade.SellUserMachine | controller/usermachine/transactionController.js:212-318 | missing holding gives NotFound, inactive gives InvalidState; success requires catalog machine, user and Balance; `adminAdd` grows by 0.9 of the live catalog price, the holding turns inactive, the sale record's `after = before + 0.9*price` and selling price plus deduction equal the price; apart from Balances, holdings and the log, the store (users, email index, catalog, stakes, id counter) is unchanged |
| UnitTrade.AdminBucketCanGoNegative | controller/usermachine/transactionController.js:77-107 | when the total covers the cost but `adminAdd` alone does not, the purchase succeeds and leaves `adminAdd` negative |
| UnitTrade.SecondSaleRefused | controller/usermachine/transactionController.js:224-232 | selling the same holding again fails with InvalidState |
| UnitTrade.BuyThenSellCostsDeduction | controller/usermachine/transactionController.js:234-266 | buying one machine and selling it back costs exactly 10% of its price, all from `adminAdd`; `miningBalance` is unchanged |
| ShareConfig.Validate | middleware/shareMachine.js:1-16 | non-share-based machines pass; a zero share price fails; an accepted share-based machine has `floor(price/sharePrice) == totalShares` |
| ShareConfig.FloorCharacterisation | middleware/shareMachine.js:4-7 | for a positive share price, `floor(p/s) == t` holds exactly when `t*s <= p < (t+1)*s` |
| ShareConfig.AcceptedIff | middleware/shareMachine.js:1-16 | with positive price and share count, a share-based machine is accepted exactly when `totalShares` shares fit the price and one more does not, and the monthly profit is within `0.01*totalShares` of `totalShares*profitPerShare` |
| ShareConfig.SharesCoverPrice | middleware/shareMachine.js:4-7 | an accepted machine's full share count is worth at most its price and less than one share below it |
| ShareConfig.PremiumMachineAccepted | addSpecialMachine.js:44-53 | the seeded machine (19000 price, share price 50, 380 shares, 3500 profit, 9.21 per share) passes the validator |
| ShareMarket.CalculateShareDetails | controller/shareMachineController.js:8-12 | no finite result exactly when the share price is zero; no finite profit per share exactly when the share count is zero; otherwise profit per share times share count is the monthly profit |
| ShareMarket.DetailsBracketPrice | controller/shareMachineController.js:9 | with a positive share price, the derived share count is the largest whose total value fits the price |
| ShareMarket.DetailsAgreeWithValidatedMachine | middleware/shareMachine.js:4-13 | on a validator-accepted machine the derived share count equals the stored one and the derived profit per share is within 0.01 of the stored one |
| ShareMarket.RecordsFor | controller/shareMachineController.js:26-28 | the sold count is a record count, at most the number of records |
| ShareMarket.RecordCountVersusShares | controller/shareMachineController.js:26-29 | with schema-valid records the record count never exceeds the shares recorded, and equals it exactly when every record of the machine holds one share |
| ShareMarket.GetShareAvailability | controller/shareMachineController.js:14-50 | missing or non-share-based machines are refused; the reply succeeds exactly for a share-based machine with a non-zero share price; availability is derived total minus the number of purchase records, with share price and per-share profit from the derived details |
| ShareMarket.PurchaseShares | controller/shareMachineController.js:196-271 | missing or non-share-based machine gives ValidationError; more than available gives InsufficientShares (equality allowed); success exactly when the Balance exists and covers `n*sharePrice`; then `availableShares` falls by `n`, `adminAdd` by the cost, the record has `after = before - cost`, and the share holdings are unchanged; apart from the catalog, Balances and the log, the store (users, email index, holdings, id counter, stakes) is unchanged |
| ShareMarket.SplitPurchaseSucceeds | controller/shareMachineController.js:205-218 | if buying `a` shares and then `b` more succeeds, one purchase of `a+b` shares is in stock and affordable |
| ShareMarket.SplitPurchaseMatchesSingle | controller/shareMachineController.js:213-248 | buying `a` shares and then `b` more debits the buyer's admin bucket by the price of `a+b` shares and takes `a+b` shares off the machine, and changes no other Balance or catalog entry: the effect of one purchase of `a+b` |
| ShareMarket.PurchaseUpdates | controller/shareMachineController.js:241-248 | one successful purchase of `n` shares changes the Balances and the catalog by exactly the buyer's admin debit at the share price and the machine's `n`-share decrement |
| ShareMarket.PurchaseSharesCorrected | controller/shareMachineController.js:205-248 | refuses fewer than one share, otherwise succeeds exactly when the handler does, with the same effects plus one new active stake for the buyer |
| ShareMarket.CorrectedPurchaseKeepsInventory | controller/shareMachineController.js:241-248 | the corrected purchase keeps `available + active shares held == total` for every machine, never drives availability below zero, and leaves a schema-valid stake |
| ShareMarket.PurchaseBreaksInventory | controller/shareMachineController.js:221-248 | the handler's successful purchase of a non-zero share count breaks `available + held == total` |
| ShareMarket.NegativePurchaseCredits | controller/shareMachineController.js:209-218 | a negative share count is accepted, raises `adminAdd` and raises availability |
| ShareMarket.SellOutThenRefuse | controller/shareMachineController.js:209-211 | after buying every available share, any purchase of one or more shares of that machine fails with InsufficientShares |
| ShareMarket.CreditDue | controller/shareMachineController.js:104-113 | each user's mining bucket grows by exactly the profit of their selected stakes; admin buckets, owners and clocks unchanged; consistency kept |
| ShareMarket.MarkUpdated | controller/shareMachineController.js:115-116 | afterwards no stake of the machine is due; only clocks move, never backwards; stakes that were not due are untouched and the due ones are stamped with now |
| ShareMarket.UpdateShareProfits | controller/shareMachineController.js:88-141 | succeeds exactly when every selected stake's owner has a Balance; each user's mining grows by their selected stakes' full monthly profit, admin unchanged; afterwards no stake is selected; holdings, catalog and log otherwise unchanged; only Balances and stakes change, so users, email index and id counter are kept too |
| ShareMarket.UpdateShareProfitsIdempotent | controller/shareMachineController.js:96-116 | re-running at the same instant returns the same state |
| WithdrawalFlow.RequestWithdrawal | controller/withdrawalContoller.js:9-93 | missing email or amount, or amount `<= 0`, gives ValidationError; success exactly when the user and Balance exist and `amount <= totalBalance`; one pending withdrawal record with `after = before - amount` is appended and no Balance changes |
| WithdrawalFlow.DrainAdminFirst | controller/withdrawalContoller.js:138-150 | `adminAdd` becomes `max(admin-amount, 0)`, mining loses the remainder, the total falls by exactly `amount`, and non-negative buckets stay non-negative when the amount fits |
| WithdrawalFlow.ProcessWithdrawalRequest | controller/withdrawalContoller.js:96-195 | only `approved`/`rejected` are accepted; a decided record gives InvalidState and a record whose user is gone a runtime fault; a pending record is rejected exactly when its user exists; approval re-checks `amount <= totalBalance` and succeeds exactly then, applying the admin-first drain; rejection leaves balances; both record the decision; only Balances and the log change |
| WithdrawalFlow.DecisionIsFinal | controller/withdrawalContoller.js:117-122 | after a decision any further decision on the same record fails |
| WithdrawalFlow.RequestThenApprove | controller/withdrawalContoller.js:128-152 | a fresh request can be approved at once, and approval lowers the total by exactly the requested amount |
| BalanceOps.UpdateBalance | controller/balanceController.js:6-70 | types other than `withdrawal`/`profit` give ValidationError; a missing Balance gives NotFound; a `withdrawal` changes nothing; a `profit` moves only the bucket named by `balanceType` (admin, else mining) by the signed amount, keeps the invariant and logs an approved record of `|amount|`; only Balances and the log change |
| BalanceOps.DrainMiningFirst | controller/balanceController.js:115-122 | `miningBalance` becomes `max(mining-amount, 0)`, admin loses the remainder, the total falls by exactly `amount`, and non-negative buckets stay non-negative when the amount fits |
| BalanceOps.ProcessWithdrawal | controller/balanceController.js:73-153 | a missing or non-withdrawal record gives NotFound and a decided one InvalidState; a pending record succeeds exactly when its owner has a Balance, the status is in the enum and, for `approved`, `amount <= adminAdd + miningBalance`; otherwise NotFound, SchemaViolation or InsufficientFunds; approval applies the mining-first drain; any other enum status is written with no Balance effect; only Balances and the log change |
| BalanceOps.BothDrainsPreserveSum | controller/balanceController.js:115-125 | both approval drains keep a consistent Balance consistent and lower its total by exactly `amount` |
| BalanceOps.DrainsAgreeIff | controller/withdrawalContoller.js:138-150 | on non-negative buckets the two drains give the same Balance exactly when the amount is zero, the whole total, or one bucket is empty |
| BalanceOps.SplitExample | controller/balanceController.js:115-122 | from admin 100 and mining 50, withdrawing 50 leaves (50, 50) admin-first and (100, 0) mining-first |
| BalanceOps.InitializeBalance | controller/balanceController.js:156-165 | the initial Balance has all amounts zero and is consistent |
| BalanceOps.GetBalance | controller/balanceController.js:168-183 | an existing Balance is returned with no change; otherwise exactly one zeroed record is created for the user; only Balances change, and no other Balance is touched |
| BalanceOps.GetBalanceIdempotent | controller/balanceController.js:168-183 | reading twice gives the same state and record as reading once |
| Accrual.AccrueUnit | cronJobs.js:31-37 | accrual adds exactly one monthly profit and sets the clock to now, after which the 30-day rule no longer fires; identity, status and terms kept |
| Accrual.ClockAdvances | cronJobs.js:36 | accrual moves a holding's clock strictly forward |
| Accrual.Save | model/UserMAchine.js:3-66 | a save keeps every declared field; with the clock declared the effective last update is unchanged, without it the clock is lost and the holding falls back to its assignment date; the record is unchanged exactly when the clock is declared or was never set |
| Accrual.TickUnits | cronJobs.js:17-45 | fails exactly when a due active holding's catalog machine is missing; holdings not due are unchanged; due ones gain exactly the catalog monthly profit; with the clock persisted none is due afterwards |
| Accrual.BalanceOrZero | cronJobs.js:69-77 | the buckets read are the owner's stored ones, or zero when there is no Balance; a missing Balance starts consistent with total 0, and a stored consistent one stays consistent |
| Accrual.ShareProfitDraft | cronJobs.js:91-108 | a completed SHARE_PROFIT record for the stake's profit, with `after - before == profit` and, on a consistent Balance, `before` equal to its total |
| Accrual.AccrueShare | cronJobs.js:62-108 | fails exactly when the stake's machine is missing; otherwise the owner's mining grows by the stake profit on a possibly fresh zeroed Balance, admin unchanged, invariant recomputed, clock reset, one record logged; only Balances, stakes and the log change |
| Accrual.TickSharesFrom | cronJobs.js:48-116 | fails exactly when a due stake's machine is missing; exactly the due stakes get their clock set to now; the log only grows; unit holdings and catalog unchanged; only Balances, stakes and the log change |
| Accrual.TickSharesKeys | cronJobs.js:69-77 | after the share loop, Balances exist for exactly the previous holders and the owners of due stakes |
| Accrual.TickSharesCredits | cronJobs.js:79-83 | the share loop grows each user's mining bucket by exactly their due stakes' profit and leaves `adminAdd` unchanged |
| Accrual.TickSharesConsistent | cronJobs.js:80-81 | the share loop keeps every Balance consistent |
| Accrual.NothingDueNoop | cronJobs.js:57-62 | with no stake due the share loop changes nothing |
| Accrual.RunAccrual | cronJobs.js:14-125 | the run succeeds exactly when every due holding and stake has its machine; afterwards no stake is due and the catalog is unchanged; only holdings, Balances, stakes and the log change |
| Accrual.RunAccrualCredits | cronJobs.js:17-116 | over a run each user's mining grows by exactly their due stakes' profit, admin buckets never move, unit accrual touches no Balance, and consistency is kept |
| Accrual.RunAccrualIdempotent | cronJobs.js:31-87 | with clocks persisted a second run at the same instant returns the same state |
| Accrual.AsWrittenCreditsTwice | cronJobs.js:22-37 | without the persisted clock a due holding is credited again by a second run at the same instant: two monthly profits in total |
| ProfitOps.ProfitUpdateStatus | controller/usermachine/profitController.js:7-37 | reports whole days since the clock and days left, never negative, zero exactly when 30 days have passed and otherwise adding up to 30 with the days elapsed |
| ProfitOps.UpdateMonthlyProfit | controller/usermachine/profitController.js:39-112 | missing holding gives NotFound; under 30 days replies "too soon" with the days left and the next date; otherwise credits exactly when machine, user and Balance exist: accumulated and mining each grow by one catalog monthly profit, admin unchanged, clock reset; a credit changes only holdings and Balances |
| ProfitOps.UpdateMonthlyProfitAsWritten | controller/usermachine/profitController.js:98-104 | the "too soon" branch fails instead of replying; a credit equals the corrected one except that the holding's clock is not stored |
| ProfitOps.TooSoonThrows | controller/usermachine/profitController.js:98-103 | a holding updated at this instant gets an error as written and "30 days left" when corrected |
| ProfitOps.AsWrittenEndpointPaysTwice | controller/usermachine/profitController.js:57-69 | as written, a credited holding without a stored clock is credited again at once, two monthly profits in total |
| ProfitOps.UpdateMonthlyProfitIdempotent | controller/usermachine/profitController.js:57-69 | after a credit an immediate second call replies "too soon" with 30 days left |
| ProfitOps.InactiveHoldingsAccrue | controller/usermachine/profitController.js:46-63 | a due inactive holding is credited by the endpoint although the cron run skips it |
| ProfitOps.StatusAgreesWithUpdate | controller/usermachine/profitController.js:19-29 | the status reports zero days left exactly when the endpoint would credit |
| ProfitOps.ManualProfitUpdate | controller/usermachine/profitController.js:114-152 | corrected: a missing or zero amount is refused and an unknown holding gives NotFound; otherwise only that holding's accumulated profit moves by the amount and its stored clock is now; its owner, machine, snapshot and assignment date are kept, and nothing else in the store changes |
| ProfitOps.ManualProfitUpdateAsWritten | controller/usermachine/profitController.js:134-137 | fails exactly when the corrected update fails; on success the profit moves by the amount but the holding keeps no clock, so its last update falls back to its unchanged assignment date; its owner, machine and snapshot are kept and nothing else in the store changes |
| ProfitOps.ManualCreditLeavesHoldingDue | controller/usermachine/profitController.js:134-137 | as written, an active holding 30 days past assignment is still due after a manual credit, and a successful cron run at the same instant adds a full monthly profit on top of the amount |
| ProfitOps.ManualCreditRestartsClock | controller/usermachine/profitController.js:134-137 | corrected, a manually credited holding is not due, a cron run at the same instant leaves its profit at the old value plus the amount, and Balances and their consistency are kept |
| ProfitOps.Percentage | controller/usermachine/profitController.js:181-183 | zero for a non-positive total; otherwise percentage times total is 100 times the holding's profit |
| ProfitOps.ProfitPercentages | controller/usermachine/profitController.js:173-186 | one percentage per holding, in order, each its holding's share of the summed profit; with a positive total they sum to 100, and with no negative profit each lies in [0, 100] |
| ProfitOps.PercentagesSumTo100 | controller/usermachine/profitController.js:173-183 | with a positive total the percentages sum to exactly 100 |
| ProfitOps.PercentagesBounded | controller/usermachine/profitController.js:181-183 | with no negative profits each percentage lies between 0 and 100 |
| ProfitOps.ActiveIdsBelow | controller/usermachine/profitController.js:160-163 | lists, in increasing order, exactly the ids below the bound of the user's active holdings |
| ProfitOps.GetMachineProfitPercentages | controller/usermachine/profitController.js:155-193 | selects exactly the user's active holdings; no holdings gives no percentages and total 0; total is their summed profit; each percentage is its holding's share, summing to 100 for a positive total and within [0, 100] when no profit is negative |
| Assignment.InsertMany | controller/usermachine/machineController.js:49 | the batch succeeds exactly when the document validates, adding exactly the fresh ids bound to it and nothing else |
| Assignment.AssignMachineToUserAsWritten | controller/usermachine/machineController.js:10-78 | missing ids or quantity below 1 give ValidationError, missing user or machine NotFound, and every other request fails schema validation |
| Assignment.AsWrittenNeverAssigns | controller/usermachine/machineController.js:37-49 | no request ever succeeds |
| Assignment.AssignMachineToUser | controller/usermachine/machineController.js:10-78 | succeeds exactly when the request is well formed, user and valid machine exist and the mail is delivered; creates exactly `quantity` fresh, valid, active holdings with zero profit; balances, log, stakes and catalog unchanged; only holdings and the id counter change |
| Assignment.AssignmentMatchesPurchaseUnits | controller/usermachine/machineController.js:37-49 | an assignment creates the same holdings as a paid purchase of the same quantity, but charges nothing |
| Assignment.RemoveUserMachine | controller/usermachine/machineController.js:112-140 | a missing id gives ValidationError, an unknown one NotFound; otherwise exactly that holding is deleted and nothing else changes |
| Assignment.RemoveTwiceNotFound | controller/usermachine/machineController.js:124-129 | removing the same holding again reports NotFound |

## Left out

- I/O is not modelled: HTTP requests and responses, the response payload shapes, logging, and `sendEmail`. A delivery outcome is a parameter only for the assignment, where it decides the commit.
- Sessions, `withTransaction`, read and write concerns, and real concurrency are not modelled. Each handler is one atomic step. The retry wrapper sees an abstract sequence of attempt outcomes.
- `updateShareProfits` runs its per-stake updates concurrently with `Promise.all`. Two stakes of one user can then lose an update. The model credits them one after another.
- The clock is not modelled: each handler takes a single `now`, although the source calls `new Date()` once per loop iteration.
- IEEE doubles are not modelled. Money is exact `real`. `toFixed(4)` on cron share profit and `toFixed(2)` on percentages are not modelled.
- Only the arithmetic of `Math.floor`, division and non-finite quotients is modelled. A zero share price in the availability reply becomes a `NonFiniteNumber` failure rather than an `Infinity` field.
- `Accrual.AccrueShare`: the undeclared `totalProfitEarned` counter written by the cron job is not kept, because the schema drops it.
- The `details` text of records, e-mail lower-casing, `images`, `createdAt` and timestamps are not modelled.
- The listing and statistics handlers are not modelled, since they change no state and only filter and format stored records: `getUserMachines`, `getAllUserMachines` (machineController.js), `getUserShares` (shareMachineController.js), `checkPurchaseEligibility` and `getSaleHistory` (transactionController.js), and `getPendingWithdrawals`, `getUserWithdrawals`, `getWithdrawalStats`, `getAllWithdrawals` and `getBalanceHistory` (withdrawalContoller.js). The read-only handlers `getProfitUpdateStatus`, `getShareAvailability` and `getMachineProfitPercentages` are modelled. The user, auth, contact and catalog-upload code and routing are not modelled either.
- Share sales are not modelled, because no share-sale handler is among the modelled files.
- Non-integer quantities and share counts are not modelled: counts are integers. Share counts are left signed so the negative-purchase defect can be shown.
- `updateBalance` with type `withdrawal` never sends a response. The model records only that nothing is written.
- BalanceOps.ProcessWithdrawal: a status outside the enum is written and then rejected on save. The model reports it as a schema violation and does not state which message the caller sees.
- Module-loading defects are not modelled. These are the wrong import paths in the share controller, the missing `StatusCodes` import, and the share validator attached to a schema object the middleware never defines. The validator is modelled as a function and is not applied on save.
- `ShareConfig.Validate`: when the share-count check fails, the hook calls `next` with an error and then keeps running. The model takes the first failing check as the verdict.
- A repeated `abortTransaction` in error paths is not modelled. An example is `updateMonthlyProfit`'s catch after its own abort. Such a path is an error with no writes.
- The cron schedule is not modelled: one call of `RunAccrual` is one run.
- Request fields are typed values, and JavaScript coercion of request bodies is not modelled. `profitAmount` values such as `"0"` or `" "` pass `!profitAmount || isNaN(profitAmount)` in the source, adding 0 and restarting the clock, while the model refuses `0.0`. A missing `status` in `processWithdrawal` unsets the field rather than failing.
- The Balance schema does not make `user` unique. The store holds at most one Balance per user, because every creating path first looks one up; a second record inserted by other code is not modelled.
- `ProfitOps.GetMachineProfitPercentages`: the reply's machine name, monthly rate, last-update date, count and timestamp are display fields and are not modelled; the percentages are exact, not rounded by `toFixed(2)`.

## Findings

| source | as written | input that shows it | evidently intended | confidence | as-written member | corrected member |
|---|---|---|---|---|---|---|
| cronJobs.js:31-37 | the unit-holding clock `lastProfitUpdate` is assigned, but the UserMachine schema does not declare it, so strict mode drops it on save | an active holding assigned 30 days before `now`, run twice at `now` | the clock is stored and a second run at the same instant is a no-op | medium (relies on Mongoose's default strict mode), not executed | Accrual.AsWrittenCreditsTwice | Accrual.RunAccrualIdempotent |
| controller/usermachine/profitController.js:57-69 | the same undeclared clock on the per-holding endpoint | a due holding with no stored clock, updated twice at `now` | the second call replies "too soon" | medium (relies on Mongoose's default strict mode), not executed | ProfitOps.AsWrittenEndpointPaysTwice | ProfitOps.UpdateMonthlyProfitIdempotent |
| controller/usermachine/profitController.js:98-103 | the "too soon" reply reads `daysSinceUpdate`, which is never declared, so the branch throws | a holding updated at this instant | reply with `30 - days` left and the next update date | high, not executed | ProfitOps.TooSoonThrows | ProfitOps.UpdateMonthlyProfit |
| controller/shareMachineController.js:221-248 | a share purchase decrements `availableShares` and debits the buyer but creates no SharePurchase | any successful purchase of 1 share on a machine where `available + held == total` | a stake is created in the same step, keeping `available + held == total` | high, not executed | ShareMarket.PurchaseBreaksInventory | ShareMarket.CorrectedPurchaseKeepsInventory |
| controller/shareMachineController.js:209-218 | `numberOfShares` is never checked to be at least 1 | `numberOfShares = -5`, share price 50, balance 0, 10 available: accepted, `adminAdd` rises by 250 and availability by 5 | fewer than one share is refused | high, not executed | ShareMarket.NegativePurchaseCredits | ShareMarket.PurchaseSharesCorrected |
| controller/usermachine/machineController.js:37-49 | assigned holdings carry none of the snapshot fields the schema requires, so `insertMany` fails validation | any well-formed request for an existing user and machine | copy the machine's terms into each holding, as the purchase does | high, not executed | Assignment.AsWrittenNeverAssigns | Assignment.AssignMachineToUser |
| controller/usermachine/profitController.js:134-137 | a manual profit update assigns the undeclared `lastProfitUpdate`, which strict mode drops on save | an active holding assigned 30 days before `now`, credited manually at `now`, then the cron run at `now` | the manual update restarts the 30-day clock, so the cron run adds nothing | medium (relies on Mongoose's default strict mode), not executed | ProfitOps.ManualCreditLeavesHoldingDue | ProfitOps.ManualCreditRestartsClock |

=== FILE: accrual.dfy ===
/** The daily accrual run (cronJobs.js): unit holdings accumulate one
    monthly profit per elapsed 30 days; share holdings pay their monthly
    profit into the owner's mining bucket and log it. */
module Accrual {
  import opened Common
  import opened BalanceModel
  import opened UserMachineModel
  import opened SharePurchaseModel
  import opened Store
  import Tx = TransactionModel

  /** Whole days that must pass between two accruals. */
  const ACCRUAL_DAYS: int := 30

  /** At least `ACCRUAL_DAYS` whole days, counted with a floor, since `last`. */
  predicate MonthElapsed(last: Time, now: Time) {
    DaysBetween(last, now) >= ACCRUAL_DAYS
  }

  /** A unit holding the run credits: active, and a month past its clock. */
  predicate UnitDue(h: UserMachine, now: Time) {
    h.status == Active && MonthElapsed(LastUpdate(h), now)
  }

  /** A share holding the run credits: active, and a month past its clock. */
  predicate ShareDue(p: SharePurchase, now: Time) {
    p.status == Active && MonthElapsed(p.lastProfitUpdate, now)
  }

  /** The "30 whole days, one monthly profit, reset the clock" rule for a unit
      holding, shared by the daily run and the per-holding endpoint. However
      many days have passed, exactly one monthly profit is added. */
  function AccrueUnit(h: UserMachine, monthlyProfit: real, now: Time): (r: UserMachine)
    ensures r.monthlyProfitAccumulated == h.monthlyProfitAccumulated + monthlyProfit
    ensures LastUpdate(r) == now && !MonthElapsed(LastUpdate(r), now)
    ensures r.user == h.user && r.machine == h.machine && r.status == h.status
    ensures r.assignedDate == h.assignedDate && r.snapshot == h.snapshot
  {
    h.(monthlyProfitAccumulated := h.monthlyProfitAccumulated + monthlyProfit, lastProfitUpdate := Some(now))
  }

  /** Accrual only ever moves a holding's clock forward. */
  lemma ClockAdvances(h: UserMachine, monthlyProfit: real, now: Time)
    requires MonthElapsed(LastUpdate(h), now)
    ensures LastUpdate(h) < LastUpdate(AccrueUnit(h, monthlyProfit, now))
  {
  }

  /** What a save persists: the holding itself when the schema declares the
      clock, the holding without it under the schema as written. */
  function Save(h: UserMachine, keepClock: bool): (r: UserMachine)
    ensures r.user == h.user && r.machine == h.machine && r.assignedDate == h.assignedDate
    ensures r.status == h.status && r.monthlyProfitAccumulated == h.monthlyProfitAccumulated && r.snapshot == h.snapshot
    ensures keepClock ==> LastUpdate(r) == LastUpdate(h)
    ensures !keepClock ==> r.lastProfitUpdate.None? && LastUpdate(r) == h.assignedDate
    ensures r == h <==> keepClock || h.lastProfitUpdate.None?
  {
    if keepClock then h else StoredAsWritten(h)
  }

  /** The unit-holding loop. A due holding whose catalog machine is gone makes
      the run throw; holdings that are not due are left as they are; no
      Balance is read or written. */
  function TickUnits(units: map<nat, UserMachine>, catalog: map<MachineId, MiningMachineModel.MiningMachine>,
                     now: Time, keepClock: bool): (r: Result<map<nat, UserMachine>>)
    ensures r.Ok? <==> forall k :: k in units && UnitDue(units[k], now) ==> units[k].machine in catalog
    ensures r.Ok? ==> r.value.Keys == units.Keys
    ensures r.Ok? ==> forall k :: k in units ==>
      && r.value[k].user == units[k].user && r.value[k].machine == units[k].machine
      && r.value[k].status == units[k].status && r.value[k].assignedDate == units[k].assignedDate
    ensures r.Ok? ==> forall k :: k in units && !UnitDue(units[k], now) ==> r.value[k] == units[k]
    ensures r.Ok? ==> forall k :: k in units && UnitDue(units[k], now) ==>
      r.value[k].monthlyProfitAccumulated
        == units[k].monthlyProfitAccumulated + catalog[units[k].machine].monthlyProfit
    ensures r.Ok? && keepClock ==> forall k :: k in units ==> !UnitDue(r.value[k], now)
  {
    if exists k :: k in units && UnitDue(units[k], now) && units[k].machine !in catalog then Err(RuntimeFault)
    else Ok(map k | k in units :: if UnitDue(units[k], now)
                                  then Save(AccrueUnit(units[k], catalog[units[k].machine].monthlyProfit, now), keepClock)
                                  else units[k])
  }

  /** The Balance the share loop credits: the stored one, or a fresh zeroed
      record when the owner has none. */
  function BalanceOrZero(bals: map<UserId, Balance>, user: UserId, now: Time): (b: Balance)
    ensures b.miningBalance == MiningOf(bals, user) && b.adminAdd == AdminOf(bals, user)
    ensures (user in bals ==> Consistent(bals[user])) ==> Consistent(b)
    ensures user in bals ==> b == bals[user]
    ensures user !in bals ==> b.user == user && b.totalBalance == 0.0 && b.lastUpdated == now
  {
    if user in bals then bals[user] else Zeroed(user, now)
  }

  /** The `SHARE_PROFIT` record for crediting stake `p` onto `before`. */
  function ShareProfitDraft(p: SharePurchase, shareId: nat, before: Balance, days: int, now: Time): (d: Tx.TxDraft)
    ensures d.record == Tx.NewRecord(p.user, StakeProfit(p), now, Tx.ShareProfit, Tx.Completed)
    ensures d.snapshot.Some? && d.snapshot.value.balanceAfter - d.snapshot.value.balanceBefore == StakeProfit(p)
    ensures Consistent(before) ==> d.snapshot.value.balanceBefore == before.totalBalance
    ensures d.metadata == Tx.ShareProfitMeta(shareId, p.machine, p.numberOfShares, p.profitPerShare, days)
  {
    var after := AddToMining(before, StakeProfit(p));
    Tx.TxDraft(
      Tx.NewRecord(p.user, StakeProfit(p), now, Tx.ShareProfit, Tx.Completed),
      Some(Tx.Snapshot(after.totalBalance - StakeProfit(p), after.totalBalance)),
      Tx.ShareProfitMeta(shareId, p.machine, p.numberOfShares, p.profitPerShare, days))
  }

  /** One pass of the share loop on the due holding at index `i`: the owner's
      mining bucket grows by the stake's profit (a missing Balance is created
      zeroed first), the clock resets, a record is logged. The record's
      metadata names the catalog machine, so a holding whose machine is gone
      makes the run throw. */
  function AccrueShare(s: State, i: nat, now: Time): (r: Result<State>)
    requires i < |s.shares| && ShareDue(s.shares[i], now)
    ensures r.Err? <==> s.shares[i].machine !in s.catalog
    ensures r.Ok? ==> r.value.balances.Keys == s.balances.Keys + {s.shares[i].user}
    ensures r.Ok? ==>
      var p := s.shares[i];
      var before := BalanceOrZero(s.balances, p.user, now);
      var b' := r.value.balances[p.user];
      && b'.miningBalance == before.miningBalance + StakeProfit(p)
      && b'.adminAdd == before.adminAdd && Consistent(b') && b'.lastUpdated == now && b'.user == before.user
      && (forall u :: u in s.balances && u != p.user ==> r.value.balances[u] == s.balances[u])
      && r.value.shares == s.shares[i := p.(lastProfitUpdate := now)]
      && r.value.txs == s.txs + [Tx.Persist(ShareProfitDraft(p, i, before, DaysBetween(p.lastProfitUpdate, now), now))]
      && r.value.units == s.units && r.value.catalog == s.catalog
    ensures r.Ok? ==> r.value == s.(balances := r.value.balances, shares := r.value.shares, txs := r.value.txs)
  {
    var p := s.shares[i];
    if p.machine !in s.catalog then Err(RuntimeFault)
    else
      var before := BalanceOrZero(s.balances, p.user, now);
      var draft := ShareProfitDraft(p, i, before, DaysBetween(p.lastProfitUpdate, now), now);
      Ok(Log(s, draft).(
        balances := s.balances[p.user := Stamp(AddToMining(before, StakeProfit(p)), now)],
        shares := s.shares[i := p.(lastProfitUpdate := now)]))
  }

  /** Mining-bucket value of `user` in `bals`, zero when there is no record. */
  function MiningOf(bals: map<UserId, Balance>, user: UserId): real {
    if user in bals then bals[user].miningBalance else 0.0
  }

  /** Admin-bucket value of `user` in `bals`, zero when there is no record. */
  function AdminOf(bals: map<UserId, Balance>, user: UserId): real {
    if user in bals then bals[user].adminAdd else 0.0
  }

  /** Profit the share loop owes `user` from index `i` on. */
  function Owed(shares: seq<SharePurchase>, i: nat, user: UserId, now: Time): real
    requires i <= |shares|
    decreases |shares| - i
  {
    if i == |shares| then 0.0
    else (if ShareDue(shares[i], now) && shares[i].user == user then StakeProfit(shares[i]) else 0.0)
         + Owed(shares, i + 1, user, now)
  }

  /** Owners of due holdings from index `i` on. */
  function DueOwners(shares: seq<SharePurchase>, i: nat, now: Time): set<UserId>
    requires i <= |shares|
    decreases |shares| - i
  {
    if i == |shares| then {}
    else (if ShareDue(shares[i], now) then {shares[i].user} else {}) + DueOwners(shares, i + 1, now)
  }

  /** `Owed` and `DueOwners` from `i` on look only at indices `i` and later. */
  lemma {:induction false} SuffixFrame(a: seq<SharePurchase>, b: seq<SharePurchase>, i: nat, user: UserId, now: Time)
    requires i <= |a| == |b|
    requires forall j :: i <= j < |a| ==> a[j] == b[j]
    ensures Owed(a, i, user, now) == Owed(b, i, user, now)
    ensures DueOwners(a, i, now) == DueOwners(b, i, now)
    decreases |a| - i
  {
    if i < |a| {
      SuffixFrame(a, b, i + 1, user, now);
    }
  }

  /** The share loop from index `i` on. Every due holding is credited once,
      in order; the first one whose machine is gone aborts the run. */
  function TickSharesFrom(s: State, i: nat, now: Time): (r: Result<State>)
    requires i <= |s.shares|
    ensures r.Ok? <==> forall j :: i <= j < |s.shares| && ShareDue(s.shares[j], now) ==> s.shares[j].machine in s.catalog
    ensures r.Ok? ==> |r.value.shares| == |s.shares|
    ensures r.Ok? ==> forall j :: 0 <= j < i ==> r.value.shares[j] == s.shares[j]
    ensures r.Ok? ==> forall j :: i <= j < |s.shares| ==>
      r.value.shares[j] == if ShareDue(s.shares[j], now) then s.shares[j].(lastProfitUpdate := now) else s.shares[j]
    ensures r.Ok? ==> s.txs <= r.value.txs && r.value.units == s.units && r.value.catalog == s.catalog
    ensures r.Ok? ==> r.value == s.(balances := r.value.balances, shares := r.value.shares, txs := r.value.txs)
    decreases |s.shares| - i
  {
    if i == |s.shares| then Ok(s)
    else if !ShareDue(s.shares[i], now) then
      TickSharesFrom(s, i + 1, now)
    else match AccrueShare(s, i, now)
      case Err(e) => Err(e)
      case Ok(s1) =>
        assert forall j :: i < j < |s.shares| ==> s1.shares[j] == s.shares[j];
        TickSharesFrom(s1, i + 1, now)
  }

  /** The share loop gives a Balance to exactly the existing holders and the
      owners of due holdings. */
  lemma {:induction false} TickSharesKeys(s: State, i: nat, now: Time)
    requires i <= |s.shares| && TickSharesFrom(s, i, now).Ok?
    ensures TickSharesFrom(s, i, now).value.balances.Keys == s.balances.Keys + DueOwners(s.shares, i, now)
    decreases |s.shares| - i
  {
    if i < |s.shares| {
      if !ShareDue(s.shares[i], now) {
        TickSharesKeys(s, i + 1, now);
      } else {
        var s1 := AccrueShare(s, i, now).value;
        CreditFrame(s, s1, i + 1, now);
        TickSharesKeys(s1, i + 1, now);
      }
    }
  }

  /** The share loop grows `user`'s mining bucket by exactly the profit owed
      on their due holdings and leaves the admin bucket where it was. */
  lemma {:induction false} TickSharesCredits(s: State, i: nat, now: Time, user: UserId)
    requires i <= |s.shares| && TickSharesFrom(s, i, now).Ok?
    requires user in TickSharesFrom(s, i, now).value.balances
    ensures TickSharesFrom(s, i, now).value.balances[user].miningBalance == MiningOf(s.balances, user) + Owed(s.shares, i, user, now)
    ensures TickSharesFrom(s, i, now).value.balances[user].adminAdd == AdminOf(s.balances, user)
    decreases |s.shares| - i
  {
    if i < |s.shares| {
      if !ShareDue(s.shares[i], now) {
        TickSharesCredits(s, i + 1, now, user);
      } else {
        var s1 := AccrueShare(s, i, now).value;
        SuffixFrame(s.shares, s1.shares, i + 1, user, now);
        TickSharesCredits(s1, i + 1, now, user);
      }
    }
  }

  /** The share loop keeps every Balance's sum invariant. */
  lemma {:induction false} TickSharesConsistent(s: State, i: nat, now: Time)
    requires i <= |s.shares| && TickSharesFrom(s, i, now).Ok? && AllConsistent(s)
    ensures AllConsistent(TickSharesFrom(s, i, now).value)
    decreases |s.shares| - i
  {
    if i < |s.shares| {
      if !ShareDue(s.shares[i], now) {
        TickSharesConsistent(s, i + 1, now);
      } else {
        TickSharesConsistent(AccrueShare(s, i, now).value, i + 1, now);
      }
    }
  }

  /** One accrual step at index `next - 1` leaves every suffix sum from
      `next` on as it was. */
  lemma CreditFrame(s: State, s1: State, next: nat, now: Time)
    requires 0 < next <= |s.shares| && ShareDue(s.shares[next - 1], now) && AccrueShare(s, next - 1, now) == Ok(s1)
    ensures forall u :: Owed(s1.shares, next, u, now) == Owed(s.shares, next, u, now)
    ensures DueOwners(s1.shares, next, now) == DueOwners(s.shares, next, now)
  {
    forall u ensures Owed(s1.shares, next, u, now) == Owed(s.shares, next, u, now) {
      SuffixFrame(s.shares, s1.shares, next, u, now);
    }
    SuffixFrame(s.shares, s1.shares, next, "", now);
  }

  /** With nothing due from `i` on, the share loop changes nothing. */
  lemma {:induction false} NothingDueNoop(s: State, i: nat, now: Time)
    requires i <= |s.shares|
    requires forall j :: i <= j < |s.shares| ==> !ShareDue(s.shares[j], now)
    ensures TickSharesFrom(s, i, now) == Ok(s)
    decreases |s.shares| - i
  {
    if i < |s.shares| {
      NothingDueNoop(s, i + 1, now);
    }
  }

  /** One run of the daily job: all unit holdings, then all share holdings,
      inside one database transaction, so any throw discards every write.
      `keepClock` selects whether a unit holding's reset clock is persisted:
      `true` is the evidently intended behaviour, `false` the schema as
      written, which has no such field. */
  function RunAccrual(s: State, now: Time, keepClock: bool): (r: Result<State>)
    ensures r.Ok? <==>
      && (forall k :: k in s.units && UnitDue(s.units[k], now) ==> s.units[k].machine in s.catalog)
      && (forall j :: 0 <= j < |s.shares| && ShareDue(s.shares[j], now) ==> s.shares[j].machine in s.catalog)
    ensures r.Ok? ==> r.value.units == TickUnits(s.units, s.catalog, now, keepClock).value
    ensures r.Ok? ==> forall j :: 0 <= j < |r.value.shares| ==> !ShareDue(r.value.shares[j], now)
    ensures r.Ok? ==> r.value.catalog == s.catalog
    ensures r.Ok? ==>
      r.value == s.(units := r.value.units, balances := r.value.balances, shares := r.value.shares, txs := r.value.txs)
  {
    match TickUnits(s.units, s.catalog, now, keepClock)
    case Err(e) => Err(e)
    case Ok(units) => TickSharesFrom(s.(units := units), 0, now)
  }

  /** Over a whole run, each user's mining bucket grows by exactly the share
      profit owed to them, admin buckets never move, unit accrual touches no
      Balance, and the sum invariant is kept. */
  lemma RunAccrualCredits(s: State, now: Time, keepClock: bool, user: UserId)
    requires RunAccrual(s, now, keepClock).Ok?
    ensures var r := RunAccrual(s, now, keepClock).value;
      && r.balances.Keys == s.balances.Keys + DueOwners(s.shares, 0, now)
      && (user in r.balances ==>
            && r.balances[user].miningBalance == MiningOf(s.balances, user) + Owed(s.shares, 0, user, now)
            && r.balances[user].adminAdd == AdminOf(s.balances, user))
      && (AllConsistent(s) ==> AllConsistent(r))
  {
    var s0 := s.(units := TickUnits(s.units, s.catalog, now, keepClock).value);
    TickSharesKeys(s0, 0, now);
    if user in RunAccrual(s, now, keepClock).value.balances {
      TickSharesCredits(s0, 0, now, user);
    }
    if AllConsistent(s) {
      TickSharesConsistent(s0, 0, now);
    }
  }

  /** With the clock persisted, running the job twice at the same instant is
      the same as running it once. */
  lemma {:induction false} RunAccrualIdempotent(s: State, now: Time)
    requires RunAccrual(s, now, true).Ok?
    ensures RunAccrual(RunAccrual(s, now, true).value, now, true) == RunAccrual(s, now, true)
  {
    var r := RunAccrual(s, now, true).value;
    var units := TickUnits(s.units, s.catalog, now, true).value;
    assert forall k :: k in r.units ==> !UnitDue(r.units[k], now);
    var again := TickUnits(r.units, r.catalog, now, true);
    assert again.Ok?;
    assert again.value == r.units;
    assert r.(units := again.value) == r;
    NothingDueNoop(r, 0, now);
  }

  /** As written, the reset clock of a unit holding is not persisted, so the
      holding stays due and a second run at the same instant credits it again. */
  lemma {:induction false} AsWrittenCreditsTwice(s: State, now: Time, k: nat)
    requires RunAccrual(s, now, false).Ok?
    requires k in s.units && UnitDue(s.units[k], now) && s.units[k].lastProfitUpdate.None?
    ensures RunAccrual(RunAccrual(s, now, false).value, now, false).Ok?
    ensures RunAccrual(RunAccrual(s, now, false).value, now, false).value.units[k].monthlyProfitAccumulated
            == s.units[k].monthlyProfitAccumulated + 2.0 * s.catalog[s.units[k].machine].monthlyProfit
  {
    var r := RunAccrual(s, now, false).value;
    var units := TickUnits(s.units, s.catalog, now, false).value;
    assert r.units == units;
    assert units[k] == StoredAsWritten(AccrueUnit(s.units[k], s.catalog[s.units[k].machine].monthlyProfit, now));
    assert UnitDue(r.units[k], now);
  }
}

=== FILE: assignment.dfy ===
/** Administrative assignment and removal of unit holdings
    (controller/usermachine/machineController.js). */
module Assignment {
  import opened Common
  import opened UserMachineModel
  import opened MiningMachineModel
  import opened Store
  import UnitTrade

  /** `quantity` defaults to 1 when the request omits it. */
  datatype AssignRequest = AssignRequest(userId: UserId, machineId: MachineId, quantity: Option<int>)

  function QuantityOf(req: AssignRequest): int {
    QuantityOrOne(req.quantity)
  }

  /** `insertMany` of `count` copies of `h` under fresh ids; validation runs
      on every document first, and one invalid document fails the batch. */
  function InsertMany(s: State, count: nat, h: UserMachine): (r: Result<State>)
    ensures r.Ok? <==> UserMachineModel.Valid(h)
    ensures r.Err? ==> r == Err(SchemaViolation)
    ensures r.Ok? ==>
      && (forall k :: k in r.value.units <==> k in s.units || s.nextUnitId <= k < s.nextUnitId + count)
      && (forall k :: s.nextUnitId <= k < s.nextUnitId + count ==> r.value.units[k] == h)
      && (forall k :: k in s.units && !(s.nextUnitId <= k < s.nextUnitId + count) ==> r.value.units[k] == s.units[k])
      && r.value.nextUnitId == s.nextUnitId + count
      && r.value == s.(units := r.value.units, nextUnitId := r.value.nextUnitId)
    ensures r.Ok? && FreshIds(s) ==> FreshIds(r.value) && |r.value.units.Keys| == |s.units.Keys| + count
  {
    if !UserMachineModel.Valid(h) then Err(SchemaViolation)
    else
      assert FreshIds(s) ==> |AddUnits(s.units, s.nextUnitId, count, h).Keys| == |s.units.Keys| + count by {
        if FreshIds(s) { AddUnitsGrowsByCount(s, count, h); }
      }
      Ok(s.(units := AddUnits(s.units, s.nextUnitId, count, h), nextUnitId := s.nextUnitId + count))
  }

  /** The request checks: both ids present and a quantity of at least 1. */
  predicate WellFormed(req: AssignRequest) {
    req.userId != "" && req.machineId != "" && QuantityOf(req) >= 1
  }

  /** `assignMachineToUser` as written: the holdings it builds carry none of
      the snapshot fields the schema requires, so the batch insert fails
      validation whenever the request gets that far. */
  function AssignMachineToUserAsWritten(s: State, req: AssignRequest, now: Time): (r: Result<State>)
    ensures !WellFormed(req) ==> r == Err(ValidationError)
    ensures WellFormed(req) && req.userId !in s.users ==> r == Err(NotFound)
    ensures WellFormed(req) && req.userId in s.users && req.machineId !in s.catalog ==> r == Err(NotFound)
    ensures WellFormed(req) && req.userId in s.users && req.machineId in s.catalog ==> r == Err(SchemaViolation)
  {
    if !WellFormed(req) then Err(ValidationError)
    else if req.userId !in s.users || req.machineId !in s.catalog then Err(NotFound)
    else
      match InsertMany(s, QuantityOf(req), NewHolding(req.userId, req.machineId, now, None))
      case Err(e) => Err(e)
      case Ok(s') => Ok(s')
  }

  /** No request ever assigns a machine as written. */
  lemma AsWrittenNeverAssigns(s: State, req: AssignRequest, now: Time)
    ensures AssignMachineToUserAsWritten(s, req, now).Err?
  {
  }

  /** The evidently intended assignment: each holding copies the catalog
      terms, exactly `quantity` active holdings with nothing accumulated are
      created, nothing is charged and nothing is logged. The mail is sent
      before the commit, so a failed delivery (`notified` false) rolls the
      whole assignment back. */
  function AssignMachineToUser(s: State, req: AssignRequest, now: Time, notified: bool): (r: Result<State>)
    ensures !WellFormed(req) ==> r == Err(ValidationError)
    ensures r.Ok? <==>
      && WellFormed(req) && req.userId in s.users && req.machineId in s.catalog
      && MiningMachineModel.Valid(s.catalog[req.machineId]) && notified
    ensures r.Ok? ==>
      var q := QuantityOf(req);
      var s' := r.value;
      && (forall k :: k in s'.units <==> k in s.units || s.nextUnitId <= k < s.nextUnitId + q)
      && (forall k :: s.nextUnitId <= k < s.nextUnitId + q ==>
            && s'.units[k] == NewHolding(req.userId, req.machineId, now, Some(SnapshotOf(s.catalog[req.machineId])))
            && s'.units[k].status == Active && s'.units[k].monthlyProfitAccumulated == 0.0
            && UserMachineModel.Valid(s'.units[k]))
      && (forall k :: k in s.units && !(s.nextUnitId <= k < s.nextUnitId + q) ==> s'.units[k] == s.units[k])
      && s'.nextUnitId == s.nextUnitId + q
      && s'.balances == s.balances && s'.txs == s.txs && s'.shares == s.shares && s'.catalog == s.catalog
      && s' == s.(units := s'.units, nextUnitId := s'.nextUnitId)
    ensures r.Ok? && FreshIds(s) ==> FreshIds(r.value) && |r.value.units.Keys| == |s.units.Keys| + QuantityOf(req)
  {
    if !WellFormed(req) then Err(ValidationError)
    else if req.userId !in s.users || req.machineId !in s.catalog then Err(NotFound)
    else
      var m := s.catalog[req.machineId];
      match InsertMany(s, QuantityOf(req), NewHolding(req.userId, req.machineId, now, Some(SnapshotOf(m))))
      case Err(e) => Err(e)
      case Ok(s') => if notified then Ok(s') else Err(DeliveryFailure)
  }

  /** An assignment creates exactly the holdings a paid purchase of the same
      quantity would, and unlike the purchase leaves every Balance as it was. */
  lemma AssignmentMatchesPurchaseUnits(s: State, user: UserId, machine: MachineId, q: int, now: Time)
    requires q >= 1
    requires UnitTrade.PurchaseWork(s, UnitTrade.PurchaseRequest(user, machine, Some(q)), now).Ok?
    requires AssignMachineToUser(s, AssignRequest(user, machine, Some(q)), now, true).Ok?
    ensures AssignMachineToUser(s, AssignRequest(user, machine, Some(q)), now, true).value.units
            == UnitTrade.PurchaseWork(s, UnitTrade.PurchaseRequest(user, machine, Some(q)), now).value.state.units
    ensures AssignMachineToUser(s, AssignRequest(user, machine, Some(q)), now, true).value.balances == s.balances
  {
  }

  /** `removeUserMachine`: an id is required, a missing holding is reported,
      and otherwise exactly that holding is deleted, accumulated profit and
      all; no Balance is touched. */
  function RemoveUserMachine(s: State, id: Option<nat>): (r: Result<State>)
    ensures id.None? ==> r == Err(ValidationError)
    ensures r.Ok? <==> id.Some? && id.value in s.units
    ensures r.Ok? ==>
      && r.value.units.Keys == s.units.Keys - {id.value}
      && (forall k :: k in r.value.units ==> r.value.units[k] == s.units[k])
      && r.value == s.(units := r.value.units)
  {
    match id
    case None => Err(ValidationError)
    case Some(k) => if k !in s.units then Err(NotFound) else Ok(s.(units := s.units - {k}))
  }

  /** A removed holding is gone: removing it again reports it missing. */
  lemma RemoveTwiceNotFound(s: State, id: nat)
    requires RemoveUserMachine(s, Some(id)).Ok?
    ensures RemoveUserMachine(RemoveUserMachine(s, Some(id)).value, Some(id)) == Err(NotFound)
  {
  }
}

=== FILE: balance.dfy ===
/** The Balance document: one user's two buckets and their stored sum. */
module BalanceModel {
  import opened Common

  /** `adminAdd` holds operator credits and sale proceeds, `miningBalance`
      accrued mining profit; `totalBalance` is stored, not derived. */
  datatype Balance = Balance(
    user: UserId,
    totalBalance: real,
    adminAdd: real,
    miningBalance: real,
    lastUpdated: Time)

  /** The sum invariant the controllers maintain by recomputing the total on
      every write. The schema itself does not enforce it. */
  predicate Consistent(b: Balance) {
    b.totalBalance == b.adminAdd + b.miningBalance
  }

  /** Schema validation: `user` is required (an empty id fails it). */
  predicate Valid(b: Balance) {
    b.user != ""
  }

  /** A record created from the schema defaults, or by `initializeBalance`,
      which writes the same zeroes explicitly. */
  function Zeroed(user: UserId, now: Time): (b: Balance)
    ensures b.user == user && b.lastUpdated == now
    ensures b.totalBalance == 0.0 && b.adminAdd == 0.0 && b.miningBalance == 0.0
    ensures Consistent(b)
  {
    Balance(user, 0.0, 0.0, 0.0, now)
  }

  /** Writes both buckets and recomputes `totalBalance` as their sum, the
      `balance.totalBalance = balance.adminAdd + balance.miningBalance` step. */
  function WithBuckets(b: Balance, admin: real, mining: real): (r: Balance)
    ensures Consistent(r)
    ensures r.adminAdd == admin && r.miningBalance == mining
    ensures r.user == b.user && r.lastUpdated == b.lastUpdated
  {
    b.(adminAdd := admin, miningBalance := mining, totalBalance := admin + mining)
  }

  /** Moves `adminAdd` by a signed amount and recomputes the total. */
  function AddToAdmin(b: Balance, delta: real): (r: Balance)
    ensures r.adminAdd == b.adminAdd + delta && r.miningBalance == b.miningBalance
    ensures Consistent(r)
    ensures Consistent(b) ==> r.totalBalance == b.totalBalance + delta
    ensures r.user == b.user && r.lastUpdated == b.lastUpdated
  {
    WithBuckets(b, b.adminAdd + delta, b.miningBalance)
  }

  /** Two admin debits in turn are one debit of their sum. */
  lemma AdminDebitsCompose(b: Balance, x: real, y: real)
    ensures AddToAdmin(AddToAdmin(b, -x), -y) == AddToAdmin(b, -(x + y))
  {
  }

  /** Moves `miningBalance` by a signed amount and recomputes the total. */
  function AddToMining(b: Balance, delta: real): (r: Balance)
    ensures r.miningBalance == b.miningBalance + delta && r.adminAdd == b.adminAdd
    ensures Consistent(r)
    ensures Consistent(b) ==> r.totalBalance == b.totalBalance + delta
    ensures r.user == b.user && r.lastUpdated == b.lastUpdated
  {
    WithBuckets(b, b.adminAdd, b.miningBalance + delta)
  }

  /** `balance.lastUpdated = new Date()`. */
  function Stamp(b: Balance, now: Time): Balance {
    b.(lastUpdated := now)
  }

  /** The schema admits a record whose stored total disagrees with its
      buckets: the sum invariant lives only in the controllers. */
  lemma SumNotEnforcedBySchema()
    ensures exists b: Balance :: Valid(b) && !Consistent(b)
  {
    var b := Balance("u", 1.0, 0.0, 0.0, 0);
    assert Valid(b) && !Consistent(b);
  }
}

=== FILE: balance_ops.dfy ===
/** The balance controller (controller/balanceController.js): bucket credits,
    the second, mining-first withdrawal approval, and lazy Balance creation. */
module BalanceOps {
  import opened Common
  import opened BalanceModel
  import opened Store
  import Tx = TransactionModel
  import WithdrawalFlow

  /** `updateBalance`. Only the `profit` branch is written: it credits the
      bucket named by `balanceType` (anything but `admin` means mining) by
      the signed amount and logs an approved record of `|amount|`. A
      `withdrawal` request passes the type check but reaches no write and no
      commit, so it leaves the store as it was. */
  function UpdateBalance(s: State, user: UserId, amount: real, txType: string, balanceType: string, now: Time): (r: Result<State>)
    ensures txType != "withdrawal" && txType != "profit" ==> r == Err(ValidationError)
    ensures (txType == "withdrawal" || txType == "profit") && user !in s.balances ==> r == Err(NotFound)
    ensures txType == "withdrawal" && user in s.balances ==> r == Ok(s)
    ensures txType == "profit" && user in s.balances ==> r.Ok?
    ensures r.Ok? ==> r.value.balances.Keys == s.balances.Keys
    ensures r.Ok? ==> r.value == s.(balances := r.value.balances, txs := r.value.txs)
    ensures r.Ok? && txType == "profit" ==>
      var b := s.balances[user];
      var b' := r.value.balances[user];
      && (forall u :: u in s.balances && u != user ==> r.value.balances[u] == s.balances[u])
      && (balanceType == "admin" ==> b'.adminAdd == b.adminAdd + amount && b'.miningBalance == b.miningBalance)
      && (balanceType != "admin" ==> b'.miningBalance == b.miningBalance + amount && b'.adminAdd == b.adminAdd)
      && Consistent(b') && b'.lastUpdated == now
      && r.value.txs == s.txs + [Tx.NewRecord(user, Abs(amount), now, Tx.Profit, Tx.Approved)]
      && r.value.units == s.units && r.value.shares == s.shares
    ensures r.Ok? && AllConsistent(s) ==> AllConsistent(r.value)
  {
    if txType != "withdrawal" && txType != "profit" then Err(ValidationError)
    else if user !in s.balances then Err(NotFound)
    else if txType == "withdrawal" then Ok(s)
    else
      var b := s.balances[user];
      var credited := if balanceType == "admin" then AddToAdmin(b, amount) else AddToMining(b, amount);
      var receipt := Tx.TxDraft(Tx.NewRecord(user, Abs(amount), now, Tx.Profit, Tx.Approved), None, Tx.NoMetadata);
      Ok(Log(s, receipt).(balances := s.balances[user := Stamp(credited, now)]))
  }

  /** This controller's deduction: as much as possible from `miningBalance`,
      the remainder from `adminAdd`, then the total recomputed. */
  function DrainMiningFirst(b: Balance, amount: real): (r: Balance)
    ensures r.miningBalance == WithdrawalFlow.Max(b.miningBalance - amount, 0.0)
    ensures r.adminAdd == b.adminAdd - WithdrawalFlow.Max(amount - b.miningBalance, 0.0)
    ensures Consistent(r) && r.adminAdd + r.miningBalance == b.adminAdd + b.miningBalance - amount
    ensures Consistent(b) ==> r.totalBalance == b.totalBalance - amount
    ensures 0.0 <= b.adminAdd && 0.0 <= b.miningBalance && 0.0 <= amount <= b.adminAdd + b.miningBalance
            ==> 0.0 <= r.adminAdd && 0.0 <= r.miningBalance
    ensures r.user == b.user
  {
    var fromMining := Min(b.miningBalance, amount);
    var remaining := amount - fromMining;
    var admin := if remaining > 0.0 then b.adminAdd - remaining else b.adminAdd;
    WithBuckets(b, admin, b.miningBalance - fromMining)
  }

  /** `processWithdrawal`. Fails without change on a missing or non-withdrawal
      record, a decided record or a missing Balance. The requested status is
      not restricted to approved/rejected: `approved` debits (mining first,
      checked against the bucket sum rather than the stored total); any other
      status is written with no Balance effect, and only the schema's enum
      validator on save refuses a status outside the enum. */
  function ProcessWithdrawal(s: State, txId: nat, status: string, comment: Option<string>, admin: UserId, now: Time): (r: Result<State>)
    ensures txId >= |s.txs| || s.txs[txId].txType != Tx.Withdrawal ==> r == Err(NotFound)
    ensures txId < |s.txs| && s.txs[txId].txType == Tx.Withdrawal && s.txs[txId].status != Tx.Pending ==> r == Err(InvalidState)
    ensures r.Ok? ==>
      && txId < |s.txs| && s.txs[txId].txType == Tx.Withdrawal && s.txs[txId].status == Tx.Pending
      && s.txs[txId].user in s.balances && Tx.ParseStatus(status).Some?
      && r.value.txs == s.txs[txId := Tx.Decide(s.txs[txId], Tx.ParseStatus(status).value, admin, comment, now)]
      && r.value.units == s.units && r.value.shares == s.shares
    ensures r.Ok? ==> r.value == s.(balances := r.value.balances, txs := r.value.txs)
    ensures r.Ok? && status != "approved" ==> r.value.balances == s.balances
    ensures r.Ok? && status == "approved" ==>
      var t := s.txs[txId];
      var b := s.balances[t.user];
      && t.amount <= b.adminAdd + b.miningBalance
      && r.value.balances == s.balances[t.user := Stamp(DrainMiningFirst(b, t.amount), now)]
    ensures r.Ok? && AllConsistent(s) ==> AllConsistent(r.value)
    ensures r.Ok? <==>
      && txId < |s.txs| && s.txs[txId].txType == Tx.Withdrawal && s.txs[txId].status == Tx.Pending
      && s.txs[txId].user in s.balances && Tx.ParseStatus(status).Some?
      && (status == "approved" ==>
            s.txs[txId].amount <= s.balances[s.txs[txId].user].adminAdd + s.balances[s.txs[txId].user].miningBalance)
    ensures txId < |s.txs| && s.txs[txId].txType == Tx.Withdrawal && s.txs[txId].status == Tx.Pending ==>
      && (s.txs[txId].user !in s.balances ==> r == Err(NotFound))
      && (s.txs[txId].user in s.balances && Tx.ParseStatus(status).None? ==> r == Err(SchemaViolation))
      && (s.txs[txId].user in s.balances && status == "approved"
          && s.txs[txId].amount > s.balances[s.txs[txId].user].adminAdd + s.balances[s.txs[txId].user].miningBalance
          ==> r == Err(InsufficientFunds))
  {
    if txId >= |s.txs| || s.txs[txId].txType != Tx.Withdrawal then Err(NotFound)
    else
      var t := s.txs[txId];
      if t.status != Tx.Pending then Err(InvalidState)
      else if t.user !in s.balances then Err(NotFound)
      else match Tx.ParseStatus(status)
        case None => Err(SchemaViolation)
        case Some(st) =>
          var decided := s.txs[txId := Tx.Decide(t, st, admin, comment, now)];
          if st == Tx.Approved then
            var b := s.balances[t.user];
            if t.amount > b.adminAdd + b.miningBalance then Err(InsufficientFunds)
            else Ok(s.(balances := s.balances[t.user := Stamp(DrainMiningFirst(b, t.amount), now)], txs := decided))
          else Ok(s.(txs := decided))
  }

  /** Both approval paths take exactly the requested amount off a consistent
      Balance and leave it consistent; on non-negative buckets both keep the
      buckets non-negative. */
  lemma BothDrainsPreserveSum(b: Balance, amount: real)
    requires Consistent(b)
    ensures Consistent(WithdrawalFlow.DrainAdminFirst(b, amount)) && Consistent(DrainMiningFirst(b, amount))
    ensures WithdrawalFlow.DrainAdminFirst(b, amount).totalBalance == b.totalBalance - amount
    ensures DrainMiningFirst(b, amount).totalBalance == b.totalBalance - amount
  {
  }

  /** Where the two approvals part ways. On non-negative buckets and an
      amount both accept, they leave the same buckets exactly when nothing is
      withdrawn, everything is withdrawn, or one bucket is already empty. */
  lemma {:induction false} DrainsAgreeIff(b: Balance, amount: real)
    requires 0.0 <= b.adminAdd && 0.0 <= b.miningBalance && 0.0 <= amount <= b.adminAdd + b.miningBalance
    ensures WithdrawalFlow.DrainAdminFirst(b, amount) == DrainMiningFirst(b, amount) <==>
      amount == 0.0 || amount == b.adminAdd + b.miningBalance || b.adminAdd == 0.0 || b.miningBalance == 0.0
  {
    var x := WithdrawalFlow.DrainAdminFirst(b, amount);
    var y := DrainMiningFirst(b, amount);
    if x.adminAdd == y.adminAdd && x.miningBalance == y.miningBalance {
      assert x == y;
    }
  }

  /** With 100 in `adminAdd` and 50 in `miningBalance`, a withdrawal of 50
      leaves (50, 50) on the routed path and (100, 0) on this one. */
  lemma SplitExample(user: UserId, now: Time)
    ensures WithdrawalFlow.DrainAdminFirst(Balance(user, 150.0, 100.0, 50.0, now), 50.0)
            == Balance(user, 100.0, 50.0, 50.0, now)
    ensures DrainMiningFirst(Balance(user, 150.0, 100.0, 50.0, now), 50.0)
            == Balance(user, 100.0, 100.0, 0.0, now)
  {
  }

  /** `initializeBalance`: a zeroed record for the user. */
  function InitializeBalance(user: UserId, now: Time): (b: Balance)
    ensures b.user == user && b.adminAdd == 0.0 && b.miningBalance == 0.0 && b.totalBalance == 0.0
    ensures Consistent(b)
  {
    Zeroed(user, now)
  }

  /** `getBalance`: returns the user's Balance, creating a zeroed one first if
      there is none. Reading twice creates at most one record. */
  function GetBalance(s: State, user: UserId, now: Time): (r: (State, Balance))
    ensures user in r.0.balances && r.0.balances[user] == r.1
    ensures r.0 == s.(balances := r.0.balances)
    ensures user in s.balances ==> r.0 == s && r.1 == s.balances[user]
    ensures user !in s.balances ==> r.1 == InitializeBalance(user, now) && r.0.balances == s.balances[user := r.1]
    ensures r.0.balances.Keys == s.balances.Keys + {user}
    ensures forall u :: u in s.balances ==> r.0.balances[u] == s.balances[u]
    ensures AllConsistent(s) ==> AllConsistent(r.0)
  {
    if user in s.balances then (s, s.balances[user])
    else
      var b := InitializeBalance(user, now);
      (s.(balances := s.balances[user := b]), b)
  }

  /** Reading a balance twice gives the same record and creates nothing new. */
  lemma GetBalanceIdempotent(s: State, user: UserId, now: Time, later: Time)
    ensures GetBalance(GetBalance(s, user, now).0, user, later) == GetBalance(s, user, now)
  {
  }
}

=== FILE: common.dfy ===
/** Shared vocabulary of the ledger model: outcomes, error kinds, identifiers and time. */
module Common {

  /** Wall-clock time in milliseconds since the epoch (JavaScript `Date.getTime()`). */
  type Time = int

  /** Document ids supplied by a request. The empty string stands for a missing
      (falsy) id, which the handlers reject before touching the store. */
  type UserId = string
  type MachineId = string

  /** One day in milliseconds, `1000 * 60 * 60 * 24`. */
  const DAY_MS: int := 86_400_000

  datatype Option<+T> = None | Some(value: T)

  /** The ways a handler can fail. Every failure aborts the session, so the
      store keeps its previous contents. */
  datatype Failure =
    | ValidationError      // malformed request: missing id, bad quantity or amount, unknown enum value
    | NotFound             // user, machine, balance, holding or transaction missing
    | InsufficientFunds    // amount or cost exceeds the balance that is checked
    | InsufficientShares   // more shares requested than the catalog has available
    | InvalidState         // inactive holding, already-decided withdrawal
    | SchemaViolation      // a document fails its schema's validators on save
    | RuntimeFault         // a TypeError or ReferenceError raised by the handler itself
    | NonFiniteNumber      // a division the source leaves as Infinity or NaN in its reply
    | DeliveryFailure      // the notification mail could not be sent
    | TransientConflict    // a write conflict the database labels as transient

  datatype Result<+T> = Ok(value: T) | Err(error: Failure)

  /** `quantity = 1` in a request body's destructuring: an omitted quantity
      means one unit, a supplied one is taken as it is. */
  function QuantityOrOne(q: Option<int>): (n: int)
    ensures q.None? ==> n == 1
    ensures q.Some? ==> n == q.value
  {
    match q
    case None => 1
    case Some(v) => v
  }

  /** Status of a holding; both holding schemas use the enum `active`/`inactive`. */
  datatype HoldingStatus = Active | Inactive

  function Min(a: real, b: real): real {
    if a <= b then a else b
  }

  function Abs(x: real): real {
    if x < 0.0 then -x else x
  }

  /** `Math.floor((now - last) / DAY_MS)`: whole days elapsed, rounded towards
      minus infinity, so a timestamp in the future gives a negative count. */
  function DaysBetween(last: Time, now: Time): (days: int)
    ensures days * DAY_MS <= now - last < (days + 1) * DAY_MS
    ensures last <= now ==> days >= 0
    ensures now < last ==> days < 0
  {
    (now - last) / DAY_MS
  }
}

=== FILE: mining_machine.dfy ===
/** The MiningMachine catalog document and its share economics. */
module MiningMachineModel {
  import opened Common
  import opened UserMachineModel

  const DEFAULT_SHARE_PRICE: real := 50.0
  const DEFAULT_TOTAL_SHARES: int := 380
  const DEFAULT_AVAILABLE_SHARES: int := 380
  const DEFAULT_PROFIT_PER_SHARE: real := 9.21

  /** `images` and `createdAt` are not modelled. */
  datatype MiningMachine = MiningMachine(
    machineName: string,
    hashrate: string,
    powerConsumption: real,
    priceRange: real,
    coinsMined: string,
    monthlyProfit: real,
    description: string,
    isShareBased: bool,
    sharePrice: real,
    availableShares: int,
    profitPerShare: real,
    totalShares: int)

  /** Schema validation: the required strings must be non-empty; the required
      numbers (`priceRange`, `monthlyProfit`, `powerConsumption`) are present
      by construction. No validator relates `availableShares` to `totalShares`. */
  predicate Valid(m: MiningMachine) {
    m.machineName != "" && m.hashrate != "" && m.coinsMined != "" && m.description != ""
  }

  /** A machine created from the required fields only: the schema defaults
      fill in the share economics. */
  function WithDefaults(name: string, hashrate: string, power: real, price: real,
                        coins: string, profit: real, description: string): (m: MiningMachine)
    ensures !m.isShareBased
    ensures m.sharePrice == 50.0 && m.totalShares == 380 && m.profitPerShare == 9.21
    ensures m.availableShares == m.totalShares
    ensures m.priceRange == price && m.monthlyProfit == profit
  {
    MiningMachine(name, hashrate, power, price, coins, profit, description,
                  false, DEFAULT_SHARE_PRICE, DEFAULT_AVAILABLE_SHARES,
                  DEFAULT_PROFIT_PER_SHARE, DEFAULT_TOTAL_SHARES)
  }

  /** The terms a unit purchase copies into each new holding. */
  function SnapshotOf(m: MiningMachine): (s: MachineSnapshot)
    ensures s.priceRange == m.priceRange && s.monthlyProfit == m.monthlyProfit
    ensures Valid(m) ==> ValidSnapshot(s)
  {
    MachineSnapshot(m.machineName, m.hashrate, m.powerConsumption, m.priceRange,
                    m.coinsMined, m.monthlyProfit, m.description)
  }

  /** Nothing in the schema ties available shares to total shares: a valid
      record may claim more shares available than exist. */
  lemma AvailabilityUntied()
    ensures exists m: MiningMachine :: Valid(m) && m.availableShares > m.totalShares
  {
    var m := WithDefaults("m", "1 TH/s", 1.0, 1.0, "BTC", 1.0, "d").(availableShares := 381);
    assert Valid(m) && m.availableShares > m.totalShares;
  }
}

=== FILE: profit_ops.dfy ===
/** The per-holding profit endpoints (controller/usermachine/profitController.js). */
module ProfitOps {
  import opened Common
  import opened BalanceModel
  import opened UserMachineModel
  import opened Store
  import opened Accrual
  import ShareConfig

  /** The status reply. The source names the two counts "hours", but they
      are whole days. */
  datatype ProfitStatus = ProfitStatus(
    lastUpdate: Time, daysSinceUpdate: int, daysUntilNextUpdate: int, accumulated: real, status: HoldingStatus)

  /** The accrual endpoint's replies: a committed credit, or "too soon" with
      the days left and the date the next credit becomes possible. */
  datatype ProfitReply =
    | Credited(state: State, profitAdded: real)
    | TooSoon(daysUntilNextUpdate: int, nextUpdate: Time)

  /** `getProfitUpdateStatus`: whole days since the holding's clock and the
      days left until the 30-day rule fires, never negative. The reply names
      the owner and the machine, so a dangling reference throws. */
  function ProfitUpdateStatus(s: State, id: nat, now: Time): (r: Result<ProfitStatus>)
    ensures id !in s.units ==> r == Err(NotFound)
    ensures r.Ok? <==> id in s.units && s.units[id].user in s.users && s.units[id].machine in s.catalog
    ensures r.Ok? ==>
      && r.value.lastUpdate == LastUpdate(s.units[id])
      && r.value.daysSinceUpdate * DAY_MS <= now - r.value.lastUpdate < (r.value.daysSinceUpdate + 1) * DAY_MS
      && r.value.daysUntilNextUpdate >= 0
      && (r.value.daysUntilNextUpdate == 0 <==> MonthElapsed(r.value.lastUpdate, now))
      && (r.value.daysUntilNextUpdate > 0 ==> r.value.daysSinceUpdate + r.value.daysUntilNextUpdate == ACCRUAL_DAYS)
      && r.value.accumulated == s.units[id].monthlyProfitAccumulated && r.value.status == s.units[id].status
  {
    if id !in s.units then Err(NotFound)
    else
      var h := s.units[id];
      if h.user !in s.users || h.machine !in s.catalog then Err(RuntimeFault)
      else
        var days := DaysBetween(LastUpdate(h), now);
        // `Math.max(0, 30 - days)`
        var left := if ACCRUAL_DAYS - days >= 0 then ACCRUAL_DAYS - days else 0;
        Ok(ProfitStatus(LastUpdate(h), days, left, h.monthlyProfitAccumulated, h.status))
  }

  /** `updateMonthlyProfit` with the defects fixed: the "too soon" reply is
      computed from the day count, and the reset clock is persisted. There is
      no status check, so inactive holdings accrue too. At 30 days or more
      the holding accumulates one catalog monthly profit and the owner's
      mining bucket receives the same amount. */
  function UpdateMonthlyProfit(s: State, id: nat, now: Time): (r: Result<ProfitReply>)
    ensures id !in s.units ==> r == Err(NotFound)
    ensures id in s.units && !MonthElapsed(LastUpdate(s.units[id]), now) ==>
      var h := s.units[id];
      && r.Ok? && r.value.TooSoon?
      && r.value.daysUntilNextUpdate == ACCRUAL_DAYS - DaysBetween(LastUpdate(h), now)
      && r.value.nextUpdate == LastUpdate(h) + ACCRUAL_DAYS * DAY_MS
    ensures r.Ok? && r.value.Credited? <==>
      && id in s.units && MonthElapsed(LastUpdate(s.units[id]), now)
      && s.units[id].machine in s.catalog && s.units[id].user in s.users && s.units[id].user in s.balances
    ensures r.Ok? && r.value.Credited? ==>
      var h := s.units[id];
      var profit := s.catalog[h.machine].monthlyProfit;
      var s' := r.value.state;
      && r.value.profitAdded == profit
      && s'.units == s.units[id := AccrueUnit(h, profit, now)]
      && s'.balances.Keys == s.balances.Keys
      && s'.balances[h.user].miningBalance == s.balances[h.user].miningBalance + profit
      && s'.balances[h.user].adminAdd == s.balances[h.user].adminAdd
      && Consistent(s'.balances[h.user]) && s'.balances[h.user].lastUpdated == now
      && (forall u :: u in s.balances && u != h.user ==> s'.balances[u] == s.balances[u])
      && s' == s.(units := s'.units, balances := s'.balances)
  {
    if id !in s.units then Err(NotFound)
    else
      var h := s.units[id];
      var days := DaysBetween(LastUpdate(h), now);
      if days < ACCRUAL_DAYS then Ok(TooSoon(ACCRUAL_DAYS - days, LastUpdate(h) + ACCRUAL_DAYS * DAY_MS))
      else if h.machine !in s.catalog || h.user !in s.users then Err(RuntimeFault)
      else if h.user !in s.balances then Err(NotFound)
      else
        var profit := s.catalog[h.machine].monthlyProfit;
        var b := s.balances[h.user];
        Ok(Credited(s.(units := s.units[id := AccrueUnit(h, profit, now)],
                       balances := s.balances[h.user := Stamp(AddToMining(b, profit), now)]), profit))
  }

  /** `updateMonthlyProfit` as written: the "too soon" branch reads a name
      that is never declared and throws, and the reset clock is dropped by
      the schema on save. */
  function UpdateMonthlyProfitAsWritten(s: State, id: nat, now: Time): (r: Result<ProfitReply>)
    ensures id in s.units && !MonthElapsed(LastUpdate(s.units[id]), now) ==> r == Err(RuntimeFault)
    ensures r.Ok? ==> r.value.Credited? && UpdateMonthlyProfit(s, id, now).Ok?
    ensures r.Ok? ==>
      var h := s.units[id];
      var corrected := UpdateMonthlyProfit(s, id, now).value.state;
      r.value.state == corrected.(units := s.units[id := StoredAsWritten(AccrueUnit(h, s.catalog[h.machine].monthlyProfit, now))])
    ensures r.Err? ==> UpdateMonthlyProfit(s, id, now).Err? || UpdateMonthlyProfit(s, id, now).value.TooSoon?
  {
    match UpdateMonthlyProfit(s, id, now)
    case Err(e) => Err(e)
    case Ok(TooSoon(_, _)) => Err(RuntimeFault)
    case Ok(Credited(s', profit)) =>
      var h := s.units[id];
      Ok(Credited(s'.(units := s.units[id := StoredAsWritten(AccrueUnit(h, profit, now))]), profit))
  }

  /** As written, a holding under 30 days old gets an error reply instead of
      the number of days left, and nothing is written. */
  lemma TooSoonThrows(s: State, id: nat, now: Time)
    requires id in s.units && LastUpdate(s.units[id]) == now
    ensures UpdateMonthlyProfitAsWritten(s, id, now) == Err(RuntimeFault)
    ensures UpdateMonthlyProfit(s, id, now) == Ok(TooSoon(ACCRUAL_DAYS, now + ACCRUAL_DAYS * DAY_MS))
  {
  }

  /** As written, a credited holding that never had a stored clock can be
      credited again at once: the endpoint pays twice for one month. */
  lemma AsWrittenEndpointPaysTwice(s: State, id: nat, now: Time)
    requires UpdateMonthlyProfitAsWritten(s, id, now).Ok? && s.units[id].lastProfitUpdate.None?
    ensures UpdateMonthlyProfitAsWritten(UpdateMonthlyProfitAsWritten(s, id, now).value.state, id, now).Ok?
    ensures UpdateMonthlyProfitAsWritten(UpdateMonthlyProfitAsWritten(s, id, now).value.state, id, now)
              .value.state.units[id].monthlyProfitAccumulated
            == s.units[id].monthlyProfitAccumulated + 2.0 * s.catalog[s.units[id].machine].monthlyProfit
  {
  }

  /** Once credited, an immediate second call at the same instant is refused
      as too soon and a full 30 days are reported as left. */
  lemma UpdateMonthlyProfitIdempotent(s: State, id: nat, now: Time)
    requires UpdateMonthlyProfit(s, id, now).Ok? && UpdateMonthlyProfit(s, id, now).value.Credited?
    ensures UpdateMonthlyProfit(UpdateMonthlyProfit(s, id, now).value.state, id, now)
            == Ok(TooSoon(ACCRUAL_DAYS, now + ACCRUAL_DAYS * DAY_MS))
  {
  }

  /** The endpoint checks no status: a due inactive holding is credited like
      an active one, while the daily run skips it. */
  lemma InactiveHoldingsAccrue(s: State, id: nat, now: Time)
    requires id in s.units && s.units[id].status == Inactive && MonthElapsed(LastUpdate(s.units[id]), now)
    requires s.units[id].machine in s.catalog && s.units[id].user in s.users && s.units[id].user in s.balances
    ensures UpdateMonthlyProfit(s, id, now).Ok? && UpdateMonthlyProfit(s, id, now).value.Credited?
    ensures !UnitDue(s.units[id], now)
  {
  }

  /** The status endpoint reports zero days left exactly when the accrual
      endpoint would credit the holding (its references being intact). */
  lemma StatusAgreesWithUpdate(s: State, id: nat, now: Time)
    requires id in s.units && s.units[id].user in s.users && s.units[id].machine in s.catalog && s.units[id].user in s.balances
    ensures ProfitUpdateStatus(s, id, now).value.daysUntilNextUpdate == 0
            <==> UpdateMonthlyProfit(s, id, now).value.Credited?
  {
  }

  /** `manualProfitUpdate` with the reset clock persisted: a missing, zero or
      non-numeric amount is refused; otherwise the amount, of either sign, is
      added to the holding's accumulated profit and its clock restarts. No
      Balance changes. */
  function ManualProfitUpdate(s: State, id: nat, amount: Option<real>, now: Time): (r: Result<State>)
    ensures amount.None? || amount == Some(0.0) ==> r == Err(ValidationError)
    ensures r.Ok? <==> amount.Some? && amount.value != 0.0 && id in s.units
    ensures r.Ok? ==>
      && r.value.units.Keys == s.units.Keys
      && r.value.units[id].monthlyProfitAccumulated == s.units[id].monthlyProfitAccumulated + amount.value
      && LastUpdate(r.value.units[id]) == now
      && r.value.units[id].status == s.units[id].status
      && (forall k :: k in s.units && k != id ==> r.value.units[k] == s.units[k])
      && r.value.balances == s.balances && r.value.txs == s.txs
      && r.value == s.(units := r.value.units)
      && r.value.units[id].user == s.units[id].user && r.value.units[id].machine == s.units[id].machine
      && r.value.units[id].snapshot == s.units[id].snapshot && r.value.units[id].assignedDate == s.units[id].assignedDate
  {
    if amount.None? || amount.value == 0.0 then Err(ValidationError)
    else if id !in s.units then Err(NotFound)
    else Ok(s.(units := s.units[id := AccrueUnit(s.units[id], amount.value, now)]))
  }

  /** `manualProfitUpdate` as written: the reset clock goes to a path the
      schema does not declare, so the saved holding keeps the new total but
      its clock falls back to `assignedDate`. */
  function ManualProfitUpdateAsWritten(s: State, id: nat, amount: Option<real>, now: Time): (r: Result<State>)
    ensures r.Ok? <==> ManualProfitUpdate(s, id, amount, now).Ok?
    ensures r.Err? ==> r == ManualProfitUpdate(s, id, amount, now)
    ensures r.Ok? ==>
      && r.value.units.Keys == s.units.Keys
      && r.value.units[id].monthlyProfitAccumulated == s.units[id].monthlyProfitAccumulated + amount.value
      && r.value.units[id].lastProfitUpdate.None? && LastUpdate(r.value.units[id]) == s.units[id].assignedDate
      && r.value.units[id].status == s.units[id].status
      && (forall k :: k in s.units && k != id ==> r.value.units[k] == s.units[k])
      && r.value.balances == s.balances && r.value.txs == s.txs
      && r.value == s.(units := r.value.units)
      && r.value.units[id].user == s.units[id].user && r.value.units[id].machine == s.units[id].machine
      && r.value.units[id].snapshot == s.units[id].snapshot && r.value.units[id].assignedDate == s.units[id].assignedDate
  {
    match ManualProfitUpdate(s, id, amount, now)
    case Err(e) => Err(e)
    case Ok(s') => Ok(s'.(units := s'.units[id := StoredAsWritten(s'.units[id])]))
  }

  /** As written, a manual credit does not restart the accrual clock: an
      active holding a month past its assignment stays due, and the daily
      run at the same instant adds a monthly profit on top of the manual one. */
  lemma ManualCreditLeavesHoldingDue(s: State, id: nat, amount: real, now: Time)
    requires ManualProfitUpdateAsWritten(s, id, Some(amount), now).Ok?
    requires s.units[id].status == Active && MonthElapsed(s.units[id].assignedDate, now)
    ensures var s' := ManualProfitUpdateAsWritten(s, id, Some(amount), now).value;
      && UnitDue(s'.units[id], now)
      && (RunAccrual(s', now, false).Ok? ==>
            RunAccrual(s', now, false).value.units[id].monthlyProfitAccumulated
              == s.units[id].monthlyProfitAccumulated + amount + s.catalog[s.units[id].machine].monthlyProfit)
  {
  }

  /** With the clock persisted, a manual credit restarts it: the holding is
      not due, the daily run at the same instant leaves the manual total as
      it is, and no Balance is touched. */
  lemma ManualCreditRestartsClock(s: State, id: nat, amount: real, now: Time)
    requires ManualProfitUpdate(s, id, Some(amount), now).Ok?
    ensures var s' := ManualProfitUpdate(s, id, Some(amount), now).value;
      && !UnitDue(s'.units[id], now)
      && (RunAccrual(s', now, true).Ok? ==>
            RunAccrual(s', now, true).value.units[id].monthlyProfitAccumulated
              == s.units[id].monthlyProfitAccumulated + amount)
      && s'.balances == s.balances
      && (AllConsistent(s) ==> AllConsistent(s'))
  {
  }

  /** The sum of accumulated profit over the queried holdings. */
  function TotalProfit(hs: seq<UserMachine>): real {
    if hs == [] then 0.0 else TotalProfit(hs[..|hs| - 1]) + hs[|hs| - 1].monthlyProfitAccumulated
  }

  /** The share of the total one holding represents, in percent; zero when
      the total is not positive. */
  function Percentage(h: UserMachine, total: real): (p: real)
    ensures total <= 0.0 ==> p == 0.0
    ensures total > 0.0 ==> p * total == h.monthlyProfitAccumulated * 100.0
  {
    if total > 0.0 then h.monthlyProfitAccumulated / total * 100.0 else 0.0
  }

  /** Each holding's share of `total`, in order. */
  function PercentagesOf(hs: seq<UserMachine>, total: real): (ps: seq<real>)
    ensures |ps| == |hs|
    ensures forall i :: 0 <= i < |hs| ==> ps[i] == Percentage(hs[i], total)
  {
    seq(|hs|, i requires 0 <= i < |hs| => Percentage(hs[i], total))
  }

  /** The percentage column of `getMachineProfitPercentages` for the query
      result `hs`: one entry per holding, in order, each its holding's share
      of the summed accumulated profit. With a positive total they add up to
      100, and with no negative profit each lies in [0, 100]. */
  function ProfitPercentages(hs: seq<UserMachine>): (ps: seq<real>)
    ensures |ps| == |hs|
    ensures forall i :: 0 <= i < |hs| ==> ps[i] == Percentage(hs[i], TotalProfit(hs))
    ensures TotalProfit(hs) > 0.0 ==> Sum(ps) == 100.0
    ensures (forall j :: 0 <= j < |hs| ==> hs[j].monthlyProfitAccumulated >= 0.0) ==>
      forall i :: 0 <= i < |hs| ==> 0.0 <= ps[i] <= 100.0
  {
    var ps := PercentagesOf(hs, TotalProfit(hs));
    assert TotalProfit(hs) > 0.0 ==> Sum(ps) == 100.0 by {
      if TotalProfit(hs) > 0.0 { PercentagesSumTo100(hs); }
    }
    assert (forall j :: 0 <= j < |hs| ==> hs[j].monthlyProfitAccumulated >= 0.0) ==>
             forall i :: 0 <= i < |hs| ==> 0.0 <= ps[i] <= 100.0 by {
      if forall j :: 0 <= j < |hs| ==> hs[j].monthlyProfitAccumulated >= 0.0 {
        forall i | 0 <= i < |hs| ensures 0.0 <= ps[i] <= 100.0 {
          PercentagesBounded(hs, i);
        }
      }
    }
    ps
  }

  function Sum(xs: seq<real>): real {
    if xs == [] then 0.0 else Sum(xs[..|xs| - 1]) + xs[|xs| - 1]
  }

  /** Summing the percentages of a prefix gives that prefix's share of the total. */
  lemma {:induction false} PrefixPercentages(hs: seq<UserMachine>, total: real, n: nat)
    requires total > 0.0 && n <= |hs|
    ensures Sum(PercentagesOf(hs[..n], total)) * total == TotalProfit(hs[..n]) * 100.0
  {
    if n > 0 {
      var ps := PercentagesOf(hs[..n], total);
      var prev := PercentagesOf(hs[..n - 1], total);
      assert ps[..n - 1] == prev;
      assert hs[..n][..n - 1] == hs[..n - 1];
      PrefixPercentages(hs, total, n - 1);
      calc {
        Sum(ps) * total;
        == (Sum(prev) + ps[n - 1]) * total;
        == Sum(prev) * total + ps[n - 1] * total;
        == TotalProfit(hs[..n - 1]) * 100.0 + hs[n - 1].monthlyProfitAccumulated * 100.0;
        == TotalProfit(hs[..n]) * 100.0;
      }
    }
  }

  /** With a positive total the percentages add up to exactly 100. */
  lemma {:induction false} PercentagesSumTo100(hs: seq<UserMachine>)
    requires TotalProfit(hs) > 0.0
    ensures Sum(PercentagesOf(hs, TotalProfit(hs))) == 100.0
  {
    var total := TotalProfit(hs);
    PrefixPercentages(hs, total, |hs|);
    assert hs[..|hs|] == hs;
    ShareConfig.CancelFactor(100.0, total);
    assert Sum(PercentagesOf(hs, total)) * total == 100.0 * total;
  }

  /** With no negative profits, each holding's percentage lies in [0, 100]. */
  lemma {:induction false} PercentagesBounded(hs: seq<UserMachine>, i: nat)
    requires i < |hs|
    requires forall j :: 0 <= j < |hs| ==> hs[j].monthlyProfitAccumulated >= 0.0
    ensures 0.0 <= PercentagesOf(hs, TotalProfit(hs))[i] <= 100.0
  {
    var total := TotalProfit(hs);
    if total > 0.0 {
      PartLeTotal(hs, i);
      var p := PercentagesOf(hs, total)[i];
      assert p * total == hs[i].monthlyProfitAccumulated * 100.0;
      var a := hs[i].monthlyProfitAccumulated;
      assert a <= total;
      ShareConfig.MultiplyBoth(a, total, 100.0);
      calc {
        p * total;
        == a * 100.0;
        <= total * 100.0;
        == 100.0 * total;
      }
      if p > 100.0 { ShareConfig.MultiplyBoth(100.0, p, total); }
      if p < 0.0 { ShareConfig.MultiplyBoth(p, 0.0, total); }
    }
  }

  /** `UserMachine.find({ user, status: 'active' })`: the ids below `n` of
      the user's active holdings, in ascending id order. */
  function ActiveIdsBelow(units: map<nat, UserMachine>, user: UserId, n: nat): (ids: seq<nat>)
    ensures forall i :: 0 <= i < |ids| ==>
      ids[i] < n && ids[i] in units && units[ids[i]].user == user && units[ids[i]].status == Active
    ensures forall k :: k < n && k in units && units[k].user == user && units[k].status == Active ==> k in ids
    ensures forall i, j :: 0 <= i < j < |ids| ==> ids[i] < ids[j]
  {
    if n == 0 then []
    else
      var prev := ActiveIdsBelow(units, user, n - 1);
      if n - 1 in units && units[n - 1].user == user && units[n - 1].status == Active then prev + [n - 1] else prev
  }

  /** The holdings behind a list of ids. */
  function HoldingsAt(units: map<nat, UserMachine>, ids: seq<nat>): (hs: seq<UserMachine>)
    requires forall i :: 0 <= i < |ids| ==> ids[i] in units
    ensures |hs| == |ids| && forall i :: 0 <= i < |ids| ==> hs[i] == units[ids[i]]
  {
    seq(|ids|, i requires 0 <= i < |ids| => units[ids[i]])
  }

  /** The reply of `getMachineProfitPercentages`: the selected holdings, one
      percentage per holding and the total. */
  datatype ProfitShares = ProfitShares(ids: seq<nat>, percentages: seq<real>, totalProfit: real)

  /** `getMachineProfitPercentages`: the user's active holdings, their summed
      accumulated profit, and each one's percentage of it. An empty selection
      gives no entries and a total of zero. Read-only. */
  function GetMachineProfitPercentages(s: State, user: UserId): (r: ProfitShares)
    ensures forall i :: 0 <= i < |r.ids| ==>
      r.ids[i] in s.units && s.units[r.ids[i]].user == user && s.units[r.ids[i]].status == Active
    ensures FreshIds(s) ==>
      forall k :: k in s.units && s.units[k].user == user && s.units[k].status == Active ==> k in r.ids
    ensures forall i, j :: 0 <= i < j < |r.ids| ==> r.ids[i] < r.ids[j]
    ensures r.totalProfit == TotalProfit(HoldingsAt(s.units, r.ids))
    ensures |r.percentages| == |r.ids|
    ensures r.ids == [] ==> r.percentages == [] && r.totalProfit == 0.0
    ensures forall i :: 0 <= i < |r.ids| ==> r.percentages[i] == Percentage(s.units[r.ids[i]], r.totalProfit)
    ensures r.totalProfit > 0.0 ==> Sum(r.percentages) == 100.0
    ensures (forall k :: k in s.units ==> s.units[k].monthlyProfitAccumulated >= 0.0) ==>
      forall i :: 0 <= i < |r.percentages| ==> 0.0 <= r.percentages[i] <= 100.0
  {
    var ids := ActiveIdsBelow(s.units, user, s.nextUnitId);
    var hs := HoldingsAt(s.units, ids);
    assert (forall k :: k in s.units ==> s.units[k].monthlyProfitAccumulated >= 0.0) ==>
             forall j :: 0 <= j < |hs| ==> hs[j].monthlyProfitAccumulated >= 0.0;
    var ps := ProfitPercentages(hs);
    ProfitShares(ids, ps, TotalProfit(hs))
  }

  /** A non-negative part never exceeds a total of non-negative parts. */
  lemma {:induction false} PartLeTotal(hs: seq<UserMachine>, i: nat)
    requires i < |hs|
    requires forall j :: 0 <= j < |hs| ==> hs[j].monthlyProfitAccumulated >= 0.0
    ensures 0.0 <= hs[i].monthlyProfitAccumulated <= TotalProfit(hs)
  {
    var init := hs[..|hs| - 1];
    NonNegativeTotal(init);
    if i < |hs| - 1 {
      assert init[i] == hs[i];
      PartLeTotal(init, i);
    }
  }

  lemma {:induction false} NonNegativeTotal(hs: seq<UserMachine>)
    requires forall j :: 0 <= j < |hs| ==> hs[j].monthlyProfitAccumulated >= 0.0
    ensures TotalProfit(hs) >= 0.0
  {
    if hs != [] {
      NonNegativeTotal(hs[..|hs| - 1]);
    }
  }
}

=== FILE: retry.dfy ===
/** `executeTransactionWithRetry`: run a unit of work in a fresh session up to
    three times, retrying only errors labelled transient. The unit of work is
    abstracted to the outcome it produces on each attempt. */
module Retry {
  import opened Common

  const MAX_RETRIES: nat := 3
  const RETRY_DELAY_MS: int := 1000

  /** What one attempt does: commit and return a value, or throw. `transient`
      is the `TransientTransactionError` label (or error code 251). */
  datatype Attempt<T> = Succeeded(value: T) | Threw(error: Failure, transient: bool)

  /** The wrapper's observable behaviour: what it returns or rethrows, how many
      attempts ran, and the pauses it slept between them, in order. */
  datatype Run<T> = Run(result: Result<T>, attempts: nat, delays: seq<int>)

  predicate Retryable<T>(a: Attempt<T>) {
    a.Threw? && a.transient
  }

  /** The value a single attempt hands back to the caller. */
  function Outcome<T>(a: Attempt<T>): Result<T> {
    match a
    case Succeeded(v) => Ok(v)
    case Threw(e, _) => Err(e)
  }

  /** The loop from attempt `attempt` onwards. Attempts are numbered from 1, as
      in the source; `work(k)` is the outcome of attempt `k`. */
  function RunFrom<T>(work: nat -> Attempt<T>, attempt: nat): (r: Run<T>)
    requires 1 <= attempt <= MAX_RETRIES
    ensures attempt <= r.attempts <= MAX_RETRIES
    ensures forall k :: attempt <= k < r.attempts ==> Retryable(work(k))
    ensures r.attempts < MAX_RETRIES ==> !Retryable(work(r.attempts))
    ensures r.result == Outcome(work(r.attempts))
    ensures |r.delays| == r.attempts - attempt
    ensures forall i :: 0 <= i < |r.delays| ==> r.delays[i] == RETRY_DELAY_MS * (attempt + i)
    decreases MAX_RETRIES - attempt
  {
    var a := work(attempt);
    if a.Succeeded? then Run(Ok(a.value), attempt, [])
    else if !a.transient || attempt == MAX_RETRIES then Run(Err(a.error), attempt, [])
    else
      var rest := RunFrom(work, attempt + 1);
      Run(rest.result, rest.attempts, [RETRY_DELAY_MS * attempt] + rest.delays)
  }

  /** The wrapper: at most three attempts, each earlier one a transient
      failure; the result is the last attempt's, success or error alike. The
      trailing `throw lastError` is never reached. */
  function ExecuteWithRetry<T>(work: nat -> Attempt<T>): (r: Run<T>)
    ensures 1 <= r.attempts <= MAX_RETRIES
    ensures forall k :: 1 <= k < r.attempts ==> Retryable(work(k))
    ensures r.attempts < MAX_RETRIES ==> !Retryable(work(r.attempts))
    ensures r.result == Outcome(work(r.attempts))
    ensures |r.delays| == r.attempts - 1
    ensures forall i :: 0 <= i < |r.delays| ==> r.delays[i] == RETRY_DELAY_MS * (i + 1)
  {
    RunFrom(work, 1)
  }

  /** The first successful attempt's value is returned and nothing after it runs. */
  lemma FirstSuccessWins<T>(work: nat -> Attempt<T>, k: nat)
    requires 1 <= k <= MAX_RETRIES && work(k).Succeeded?
    requires forall j :: 1 <= j < k ==> Retryable(work(j))
    ensures ExecuteWithRetry(work).attempts == k
    ensures ExecuteWithRetry(work).result == Ok(work(k).value)
  {
  }

  /** A non-transient error is rethrown at once: no further attempt runs. */
  lemma NonTransientNotRetried<T>(work: nat -> Attempt<T>)
    requires work(1).Threw? && !work(1).transient
    ensures ExecuteWithRetry(work) == Run(Err(work(1).error), 1, [])
  {
  }

  /** When every attempt fails transiently the third error is rethrown after
      pauses of one and two seconds. */
  lemma ExhaustedAfterThree<T>(work: nat -> Attempt<T>)
    requires forall k :: 1 <= k <= MAX_RETRIES ==> Retryable(work(k))
    ensures ExecuteWithRetry(work).attempts == 3
    ensures ExecuteWithRetry(work).result == Outcome(work(3)) && ExecuteWithRetry(work).result.Err?
    ensures ExecuteWithRetry(work).delays == [1000, 2000]
  {
  }

  /** The pauses grow strictly, by the same 1000 ms each time: the backoff is
      linear, not exponential. */
  lemma BackoffIsLinear<T>(work: nat -> Attempt<T>)
    ensures var d := ExecuteWithRetry(work).delays;
      forall i, j :: 0 <= i < j < |d| ==> d[i] < d[j] && d[j] - d[i] == RETRY_DELAY_MS * (j - i)
  {
  }
}

=== FILE: share_config.dfy ===
/** The share-configuration validator and the share helper methods defined for
    the MiningMachine schema. */
module ShareConfig {
  import opened Common
  import opened MiningMachineModel

  datatype ConfigError = InvalidShareConfiguration | InvalidProfitPerShare

  datatype Verdict = Accepted | Rejected(reason: ConfigError)

  /** The pre-save validator. Only share-based machines are checked. The first
      failing check decides the verdict. JavaScript's non-finite quotients are
      written out: a zero share price makes the expected share count infinite
      or NaN, which never equals a stored count; with zero shares the expected
      profit per share is NaN when the monthly profit is also zero, and NaN
      passes the `> 0.01` test, while any other profit gives an infinite
      quotient that fails it. */
  function Validate(m: MiningMachine): (v: Verdict)
    ensures !m.isShareBased ==> v == Accepted
    ensures m.isShareBased && m.sharePrice == 0.0 ==> v == Rejected(InvalidShareConfiguration)
    ensures v.Accepted? && m.isShareBased ==> m.sharePrice != 0.0 && (m.priceRange / m.sharePrice).Floor == m.totalShares
  {
    if !m.isShareBased then Accepted
    else if m.sharePrice == 0.0 then Rejected(InvalidShareConfiguration)
    else if (m.priceRange / m.sharePrice).Floor != m.totalShares then Rejected(InvalidShareConfiguration)
    else if m.totalShares == 0 then
      if m.monthlyProfit == 0.0 then Accepted else Rejected(InvalidProfitPerShare)
    else if Abs(m.monthlyProfit / m.totalShares as real - m.profitPerShare) > 0.01 then Rejected(InvalidProfitPerShare)
    else Accepted
  }

  /** `calculateAvailableShares`: the stored counter, nothing derived. */
  function AvailableShares(m: MiningMachine): int {
    m.availableShares
  }

  /** `calculateShareValue(n)`: the price of `n` shares. */
  function ShareValue(m: MiningMachine, n: int): real {
    n as real * m.sharePrice
  }

  /** `calculateMonthlyProfit(n)`: the monthly profit of `n` shares. */
  function MonthlyProfitOf(m: MiningMachine, n: int): real {
    n as real * m.profitPerShare
  }

  /** For a positive share price, `floor(p / s) == t` says exactly that `t`
      whole shares fit in the price and `t + 1` do not. */
  lemma {:induction false} FloorCharacterisation(p: real, s: real, t: int)
    requires s > 0.0
    ensures (p / s).Floor == t <==> t as real * s <= p < (t + 1) as real * s
  {
    var q := p / s;
    var lo := t as real;
    var hi := (t + 1) as real;
    assert hi == lo + 1.0;
    assert q * s == p;
    if q.Floor == t {
      assert lo <= q < hi;
      MultiplyBoth(lo, q, s);
      MultiplyBoth(q, hi, s);
      calc {
        p;
      ==
        q * s;
      <
        hi * s;
      }
      assert lo * s <= p;
    }
    if lo * s <= p < hi * s {
      DivideBoth(lo * s, p, s);
      DivideBoth(p, hi * s, s);
      CancelFactor(lo, s);
      CancelFactor(hi, s);
      assert lo <= q < hi;
      assert q.Floor == t;
    }
  }

  lemma CancelFactor(x: real, s: real)
    requires s != 0.0
    ensures x * s / s == x
  {
  }

  lemma MultiplyBoth(a: real, b: real, s: real)
    requires s > 0.0
    ensures a <= b ==> a * s <= b * s
    ensures a < b ==> a * s < b * s
  {
  }

  lemma DivideBoth(a: real, b: real, s: real)
    requires s > 0.0
    ensures a <= b ==> a / s <= b / s
    ensures a < b ==> a / s < b / s
  {
    assert a / s * s == a && b / s * s == b;
    if a / s > b / s { MultiplyBoth(b / s, a / s, s); }
    if a / s >= b / s { MultiplyBoth(b / s, a / s, s); }
  }

  /** Division-free reading of the validator for a positive share price and a
      positive share count: the shares exactly tile the price up to less than
      one share, and the stated profit per share is within one cent of an even
      split of the monthly profit. */
  lemma {:induction false} AcceptedIff(m: MiningMachine)
    requires m.isShareBased && m.sharePrice > 0.0 && m.totalShares > 0
    ensures Validate(m) == Accepted <==>
      && ShareValue(m, m.totalShares) <= m.priceRange < ShareValue(m, m.totalShares + 1)
      && Abs(m.monthlyProfit - MonthlyProfitOf(m, m.totalShares)) <= 0.01 * m.totalShares as real
  {
    FloorCharacterisation(m.priceRange, m.sharePrice, m.totalShares);
    var t := m.totalShares as real;
    var d := m.monthlyProfit / t - m.profitPerShare;
    calc {
      d * t;
    ==
      m.monthlyProfit / t * t - m.profitPerShare * t;
    ==  { CancelFactor(m.monthlyProfit, t); assert m.monthlyProfit / t * t == m.monthlyProfit; }
      m.monthlyProfit - MonthlyProfitOf(m, m.totalShares);
    }
    ScaledBound(d, 0.01, t);
  }

  /** Scaling both sides of a bound on a magnitude by a positive factor. */
  lemma ScaledBound(d: real, c: real, t: real)
    requires t > 0.0
    ensures Abs(d) <= c <==> Abs(d * t) <= c * t
  {
    if d >= 0.0 {
      assert d * t >= 0.0;
      MultiplyBoth(d, c, t);
      MultiplyBoth(c, d, t);
    } else {
      assert d * t < 0.0;
      assert Abs(d * t) == -d * t;
      MultiplyBoth(-d, c, t);
      MultiplyBoth(c, -d, t);
    }
  }

  /** An accepted share-based machine with a positive share price sells shares
      worth at most its price, short of it by less than one share. */
  lemma SharesCoverPrice(m: MiningMachine)
    requires m.isShareBased && m.sharePrice > 0.0 && Validate(m) == Accepted
    ensures ShareValue(m, m.totalShares) <= m.priceRange < ShareValue(m, m.totalShares) + m.sharePrice
  {
    FloorCharacterisation(m.priceRange, m.sharePrice, m.totalShares);
  }

  /** The seeded premium machine (price 19000, 50 per share, 380 shares,
      monthly profit 3500, 9.21 per share) passes validation. */
  lemma PremiumMachineAccepted()
    ensures Validate(MiningMachine("Premium Share Mining Machine", "180 TH/s", 3400.0, 19000.0, "Bitcoin",
                                   3500.0, "premium", true, 50.0, 380, 9.21, 380)) == Accepted
  {
    var m := MiningMachine("Premium Share Mining Machine", "180 TH/s", 3400.0, 19000.0, "Bitcoin",
                           3500.0, "premium", true, 50.0, 380, 9.21, 380);
    FloorCharacterisation(19000.0, 50.0, 380);
  }

  /** The price of `a + b` shares is the price of `a` plus the price of `b`. */
  lemma ShareValueSplits(m: MiningMachine, a: int, b: int)
    ensures ShareValue(m, a + b) == ShareValue(m, a) + ShareValue(m, b)
  {
  }
}

=== FILE: share_market.dfy ===
/** Share-based machines (controller/shareMachineController.js): share
    arithmetic, availability, purchase and the 24-hour profit run. */
module ShareMarket {
  import opened Common
  import opened BalanceModel
  import opened MiningMachineModel
  import opened SharePurchaseModel
  import opened Store
  import ShareConfig
  import Tx = TransactionModel

  /** `totalShares = floor(priceRange / sharePrice)` and the even split of the
      monthly profit over them; `None` marks a non-finite quotient. */
  datatype ShareDetails = ShareDetails(totalShares: int, profitPerShare: Option<real>)

  /** The availability reply. */
  datatype Availability = Availability(
    totalShares: int, soldShares: nat, availableShares: int, sharePrice: real, profitPerShare: Option<real>)

  /** A committed share purchase: the new state and the record as built. */
  datatype ShareBuy = ShareBuy(state: State, receipt: Tx.TxDraft)

  /** `calculateShareDetails`. A zero share price gives no finite share count;
      a zero share count gives no finite profit per share. */
  function CalculateShareDetails(m: MiningMachine): (r: Option<ShareDetails>)
    ensures r.None? <==> m.sharePrice == 0.0
    ensures r.Some? ==> (r.value.profitPerShare.None? <==> r.value.totalShares == 0)
    ensures r.Some? && r.value.totalShares != 0 ==>
      r.value.profitPerShare.value * r.value.totalShares as real == m.monthlyProfit
  {
    if m.sharePrice == 0.0 then None
    else
      var total := (m.priceRange / m.sharePrice).Floor;
      if total == 0 then Some(ShareDetails(0, None))
      else
        ShareConfig.CancelFactor(m.monthlyProfit, total as real);
        Some(ShareDetails(total, Some(m.monthlyProfit / total as real)))
  }

  /** With a positive share price, the derived share count is the largest
      whole number of shares whose value fits within the machine's price. */
  lemma DetailsBracketPrice(m: MiningMachine)
    requires m.sharePrice > 0.0
    ensures var t := CalculateShareDetails(m).value.totalShares;
      && ShareConfig.ShareValue(m, t) <= m.priceRange < ShareConfig.ShareValue(m, t + 1)
  {
    ShareConfig.FloorCharacterisation(m.priceRange, m.sharePrice, CalculateShareDetails(m).value.totalShares);
  }

  /** On a machine the validator accepts, the derived details agree with the
      stored ones: the same share count, and a profit per share within one cent. */
  lemma DetailsAgreeWithValidatedMachine(m: MiningMachine)
    requires m.isShareBased && ShareConfig.Validate(m) == ShareConfig.Accepted
    ensures CalculateShareDetails(m).Some? && CalculateShareDetails(m).value.totalShares == m.totalShares
    ensures m.totalShares != 0 ==> Abs(CalculateShareDetails(m).value.profitPerShare.value - m.profitPerShare) <= 0.01
  {
  }

  /** `SharePurchase.countDocuments({ machine })`: purchase records of any
      status for the machine, not shares. */
  function RecordsFor(shares: seq<SharePurchase>, machine: MachineId): (n: nat)
    ensures n <= |shares|
  {
    if shares == [] then 0
    else RecordsFor(shares[..|shares| - 1], machine) + (if shares[|shares| - 1].machine == machine then 1 else 0)
  }

  /** Shares recorded for the machine, over records of any status. */
  function SharesRecorded(shares: seq<SharePurchase>, machine: MachineId): int {
    if shares == [] then 0
    else SharesRecorded(shares[..|shares| - 1], machine)
         + (if shares[|shares| - 1].machine == machine then shares[|shares| - 1].numberOfShares else 0)
  }

  /** Shares of the machine held in active records. */
  function SharesHeld(shares: seq<SharePurchase>, machine: MachineId): int {
    if shares == [] then 0
    else SharesHeld(shares[..|shares| - 1], machine)
         + (var p := shares[|shares| - 1]; if p.machine == machine && p.status == Active then p.numberOfShares else 0)
  }

  /** The inventory invariant of a share-based machine: what is available plus
      what active holdings own is the machine's share count. */
  predicate Inventory(s: State, machine: MachineId) {
    machine in s.catalog
    && s.catalog[machine].availableShares + SharesHeld(s.shares, machine) == s.catalog[machine].totalShares
  }

  /** Counting records instead of shares never over-counts when every record
      satisfies the schema's `min: 1`, and counts correctly exactly when every
      record of the machine holds a single share. */
  lemma {:induction false} RecordCountVersusShares(shares: seq<SharePurchase>, machine: MachineId)
    requires forall i :: 0 <= i < |shares| ==> SharePurchaseModel.Valid(shares[i])
    ensures RecordsFor(shares, machine) as int <= SharesRecorded(shares, machine)
    ensures RecordsFor(shares, machine) as int == SharesRecorded(shares, machine) <==>
      forall i :: 0 <= i < |shares| && shares[i].machine == machine ==> shares[i].numberOfShares == 1
  {
    if shares != [] {
      var init := shares[..|shares| - 1];
      var last := shares[|shares| - 1];
      assert forall i :: 0 <= i < |init| ==> init[i] == shares[i];
      RecordCountVersusShares(init, machine);
      if RecordsFor(shares, machine) as int == SharesRecorded(shares, machine) {
        forall i | 0 <= i < |shares| && shares[i].machine == machine
          ensures shares[i].numberOfShares == 1
        {
          if i < |init| { assert init[i] == shares[i]; }
        }
      }
      if forall i :: 0 <= i < |shares| && shares[i].machine == machine ==> shares[i].numberOfShares == 1 {
        assert forall i :: 0 <= i < |init| && init[i].machine == machine ==> init[i].numberOfShares == 1;
      }
    }
  }

  /** `getShareAvailability`: total shares derived from the price, minus the
      number of purchase records for the machine. */
  function GetShareAvailability(s: State, machine: MachineId): (r: Result<Availability>)
    ensures machine !in s.catalog || !s.catalog[machine].isShareBased ==> r == Err(ValidationError)
    ensures r.Ok? <==> machine in s.catalog && s.catalog[machine].isShareBased && s.catalog[machine].sharePrice != 0.0
    ensures r.Ok? ==>
      && r.value.soldShares == RecordsFor(s.shares, machine)
      && r.value.availableShares == r.value.totalShares - r.value.soldShares
      && r.value.sharePrice == s.catalog[machine].sharePrice
      && Some(ShareDetails(r.value.totalShares, r.value.profitPerShare)) == CalculateShareDetails(s.catalog[machine])
  {
    if machine !in s.catalog || !s.catalog[machine].isShareBased then Err(ValidationError)
    else match CalculateShareDetails(s.catalog[machine])
      case None => Err(NonFiniteNumber)
      case Some(d) =>
        var sold := RecordsFor(s.shares, machine);
        Ok(Availability(d.totalShares, sold, d.totalShares - sold, s.catalog[machine].sharePrice, d.profitPerShare))
  }

  /** `purchaseShares` as written: it checks availability and the stored total,
      decrements `availableShares`, debits `adminAdd` and logs the purchase,
      but creates no SharePurchase holding, and it accepts any share count,
      zero and negative ones included. */
  function PurchaseShares(s: State, user: UserId, machine: MachineId, n: int, now: Time): (r: Result<ShareBuy>)
    ensures machine !in s.catalog || !s.catalog[machine].isShareBased ==> r == Err(ValidationError)
    ensures machine in s.catalog && s.catalog[machine].isShareBased && n > s.catalog[machine].availableShares
            ==> r == Err(InsufficientShares)
    ensures r.Ok? <==>
      && machine in s.catalog && s.catalog[machine].isShareBased && n <= s.catalog[machine].availableShares
      && user in s.balances && s.balances[user].totalBalance >= ShareConfig.ShareValue(s.catalog[machine], n)
    ensures r.Ok? ==> r.value.state.balances.Keys == s.balances.Keys && r.value.state.catalog.Keys == s.catalog.Keys
    ensures r.Ok? ==>
      var m := s.catalog[machine];
      var cost := ShareConfig.ShareValue(m, n);
      var b := s.balances[user];
      var s' := r.value.state;
      && s'.catalog[machine] == m.(availableShares := m.availableShares - n)
      && (forall k :: k in s.catalog && k != machine ==> s'.catalog[k] == s.catalog[k])
      && s'.balances[user] == AddToAdmin(b, -cost)
      && (forall u :: u in s.balances && u != user ==> s'.balances[u] == s.balances[u])
      && r.value.receipt.record == Tx.NewRecord(user, cost, now, Tx.SharePurchase, Tx.Completed)
      && r.value.receipt.snapshot == Some(Tx.Snapshot(b.totalBalance, b.totalBalance - cost))
      && r.value.receipt.metadata == Tx.SharePurchaseMeta(machine, n, m.sharePrice, m.profitPerShare)
      && s'.txs == s.txs + [Tx.Persist(r.value.receipt)]
      && s'.shares == s.shares && s'.units == s.units
    ensures r.Ok? ==>
      var s' := r.value.state;
      s' == s.(catalog := s'.catalog, balances := s'.balances, txs := s'.txs)
    ensures r.Ok? && AllConsistent(s) ==> AllConsistent(r.value.state)
  {
    if machine !in s.catalog || !s.catalog[machine].isShareBased then Err(ValidationError)
    else
      var m := s.catalog[machine];
      if n > m.availableShares then Err(InsufficientShares)
      else
        var cost := ShareConfig.ShareValue(m, n);
        if user !in s.balances || s.balances[user].totalBalance < cost then Err(InsufficientFunds)
        else
          var b := s.balances[user];
          var receipt := Tx.TxDraft(
            Tx.NewRecord(user, cost, now, Tx.SharePurchase, Tx.Completed),
            Some(Tx.Snapshot(b.totalBalance, b.totalBalance - cost)),
            Tx.SharePurchaseMeta(machine, n, m.sharePrice, m.profitPerShare));
          Ok(ShareBuy(Log(s, receipt).(
            catalog := s.catalog[machine := m.(availableShares := m.availableShares - n)],
            balances := s.balances[user := AddToAdmin(b, -cost)]), receipt))
  }

  /** The evidently intended purchase: at least one share, and the holding is
      created in the same step as the inventory is decremented. */
  function PurchaseSharesCorrected(s: State, user: UserId, machine: MachineId, n: int, now: Time): (r: Result<ShareBuy>)
    ensures n < 1 ==> r == Err(ValidationError)
    ensures r.Ok? <==> n >= 1 && PurchaseShares(s, user, machine, n, now).Ok?
    ensures r.Ok? ==>
      var m := s.catalog[machine];
      var asWritten := PurchaseShares(s, user, machine, n, now).value;
      && r.value.receipt == asWritten.receipt
      && r.value.state == asWritten.state.(shares := s.shares + [
           NewStake(user, machine, n, m.sharePrice, m.profitPerShare, ShareConfig.ShareValue(m, n), now)])
  {
    if n < 1 then Err(ValidationError)
    else match PurchaseShares(s, user, machine, n, now)
      case Err(e) => Err(e)
      case Ok(buy) =>
        var m := s.catalog[machine];
        var stake := NewStake(user, machine, n, m.sharePrice, m.profitPerShare, ShareConfig.ShareValue(m, n), now);
        Ok(ShareBuy(buy.state.(shares := s.shares + [stake]), buy.receipt))
  }

  lemma SharesHeldAppend(shares: seq<SharePurchase>, p: SharePurchase, machine: MachineId)
    ensures SharesHeld(shares + [p], machine)
            == SharesHeld(shares, machine) + (if p.machine == machine && p.status == Active then p.numberOfShares else 0)
  {
    assert (shares + [p])[..|shares|] == shares;
  }

  /** The corrected purchase keeps every machine's inventory invariant, never
      drives availability below zero, and leaves a schema-valid holding. */
  lemma {:induction false} CorrectedPurchaseKeepsInventory(s: State, user: UserId, machine: MachineId, n: int, now: Time, other: MachineId)
    requires Inventory(s, other) && PurchaseSharesCorrected(s, user, machine, n, now).Ok?
    ensures Inventory(PurchaseSharesCorrected(s, user, machine, n, now).value.state, other)
    ensures s.catalog[machine].availableShares >= 0 ==>
      PurchaseSharesCorrected(s, user, machine, n, now).value.state.catalog[machine].availableShares >= 0
    ensures user != "" && machine != "" ==> SharePurchaseModel.Valid(Last(PurchaseSharesCorrected(s, user, machine, n, now).value.state.shares))
  {
    var m := s.catalog[machine];
    var stake := NewStake(user, machine, n, m.sharePrice, m.profitPerShare, ShareConfig.ShareValue(m, n), now);
    SharesHeldAppend(s.shares, stake, other);
  }

  function Last<T>(xs: seq<T>): T
    requires xs != []
  {
    xs[|xs| - 1]
  }

  /** As written, a successful purchase of a non-zero number of shares breaks
      the inventory invariant: availability moves and no holding appears. */
  lemma PurchaseBreaksInventory(s: State, user: UserId, machine: MachineId, n: int, now: Time)
    requires Inventory(s, machine) && n != 0 && PurchaseShares(s, user, machine, n, now).Ok?
    ensures !Inventory(PurchaseShares(s, user, machine, n, now).value.state, machine)
  {
  }

  /** As written, a negative share count is accepted whenever the balance
      covers the negative cost, and it pays the buyer and grows availability. */
  lemma NegativePurchaseCredits(s: State, user: UserId, machine: MachineId, n: int, now: Time)
    requires machine in s.catalog && s.catalog[machine].isShareBased && s.catalog[machine].sharePrice > 0.0
    requires n < 0 && n <= s.catalog[machine].availableShares
    requires user in s.balances && s.balances[user].totalBalance >= 0.0
    ensures PurchaseShares(s, user, machine, n, now).Ok?
    ensures PurchaseShares(s, user, machine, n, now).value.state.balances[user].adminAdd > s.balances[user].adminAdd
    ensures PurchaseShares(s, user, machine, n, now).value.state.catalog[machine].availableShares
            > s.catalog[machine].availableShares
  {
    assert ShareConfig.ShareValue(s.catalog[machine], n) < 0.0;
  }

  /** Buying every available share leaves none: any later purchase of one or
      more shares of that machine is refused for lack of shares. */
  lemma SellOutThenRefuse(s: State, user: UserId, machine: MachineId, now: Time, user2: UserId, k: int, later: Time)
    requires machine in s.catalog
    requires PurchaseShares(s, user, machine, s.catalog[machine].availableShares, now).Ok?
    requires k >= 1
    ensures PurchaseShares(PurchaseShares(s, user, machine, s.catalog[machine].availableShares, now).value.state,
                           user2, machine, k, later) == Err(InsufficientShares)
  {
  }

  /** Buying `a` shares and then `b` more is possible only if buying `a + b`
      shares at once is: the combined purchase is in stock and affordable. */
  lemma {:induction false} SplitPurchaseSucceeds(s: State, user: UserId, machine: MachineId, a: int, b: int,
                                                 now: Time, later: Time, first: ShareBuy)
    requires user in s.balances && Consistent(s.balances[user])
    requires PurchaseShares(s, user, machine, a, now) == Ok(first)
    requires PurchaseShares(first.state, user, machine, b, later).Ok?
    ensures PurchaseShares(s, user, machine, a + b, now).Ok?
  {
    var m := s.catalog[machine];
    PurchaseUpdates(s, user, machine, a, now, first);
    ShareConfig.ShareValueSplits(m, a, b);
    assert ShareConfig.ShareValue(first.state.catalog[machine], b) == ShareConfig.ShareValue(m, b);
    assert first.state.balances[user].totalBalance == s.balances[user].totalBalance - ShareConfig.ShareValue(m, a);
  }

  /** Buying `a` shares and then `b` more has the effect of one purchase of
      `a + b` shares: the buyer's admin bucket is debited by the price of
      `a + b` shares, `a + b` shares leave the machine, and nothing else in
      the Balances or the catalog moves. `PurchaseUpdates` gives the single
      purchase exactly this effect, and `SplitPurchaseSucceeds` shows that
      it is then possible. */
  lemma {:induction false} SplitPurchaseMatchesSingle(s: State, user: UserId, machine: MachineId, a: int, b: int,
                                                      now: Time, later: Time, first: ShareBuy, second: ShareBuy)
    requires PurchaseShares(s, user, machine, a, now) == Ok(first)
    requires PurchaseShares(first.state, user, machine, b, later) == Ok(second)
    ensures user in s.balances && machine in s.catalog
    ensures second.state.balances
         == s.balances[user := AddToAdmin(s.balances[user], -ShareConfig.ShareValue(s.catalog[machine], a + b))]
    ensures second.state.catalog
         == s.catalog[machine := s.catalog[machine].(availableShares := s.catalog[machine].availableShares - (a + b))]
  {
    PurchaseUpdates(s, user, machine, a, now, first);
    PurchaseUpdates(first.state, user, machine, b, later, second);
    UpdatesCompose(s, first.state, second.state, user, machine, a, b);
  }

  /** Two successive purchase updates (a debit of the buyer's admin bucket
      at the share price, and a decrement of the machine's availability) are
      one update for the summed share count. */
  lemma UpdatesCompose(s0: State, s1: State, s2: State, user: UserId, machine: MachineId, a: int, b: int)
    requires user in s0.balances && machine in s0.catalog
    requires s1.balances == s0.balances[user := AddToAdmin(s0.balances[user], -ShareConfig.ShareValue(s0.catalog[machine], a))]
    requires s1.catalog == s0.catalog[machine := s0.catalog[machine].(availableShares := s0.catalog[machine].availableShares - a)]
    requires s2.balances == s1.balances[user := AddToAdmin(s1.balances[user], -ShareConfig.ShareValue(s1.catalog[machine], b))]
    requires s2.catalog == s1.catalog[machine := s1.catalog[machine].(availableShares := s1.catalog[machine].availableShares - b)]
    ensures s2.balances == s0.balances[user := AddToAdmin(s0.balances[user], -ShareConfig.ShareValue(s0.catalog[machine], a + b))]
    ensures s2.catalog == s0.catalog[machine := s0.catalog[machine].(availableShares := s0.catalog[machine].availableShares - (a + b))]
  {
    var m := s0.catalog[machine];
    ShareConfig.ShareValueSplits(m, a, b);
    assert ShareConfig.ShareValue(s1.catalog[machine], b) == ShareConfig.ShareValue(m, b);
    DebitsCompose(s0.balances, user, ShareConfig.ShareValue(m, a), ShareConfig.ShareValue(m, b), s1.balances, s2.balances);
    AvailabilityComposes(s0.catalog, machine, a, b, s1.catalog, s2.catalog);
  }

  /** Two debits of one buyer's admin bucket, as map updates, are one debit
      of their sum. */
  lemma DebitsCompose(bals: map<UserId, Balance>, user: UserId, x: real, y: real,
                      once: map<UserId, Balance>, twice: map<UserId, Balance>)
    requires user in bals
    requires once == bals[user := AddToAdmin(bals[user], -x)]
    requires twice == once[user := AddToAdmin(once[user], -y)]
    ensures twice == bals[user := AddToAdmin(bals[user], -(x + y))]
  {
    AdminDebitsCompose(bals[user], x, y);
  }

  /** Two decrements of one machine's availability are one decrement of
      their sum. */
  lemma AvailabilityComposes(cat: map<MachineId, MiningMachine>, machine: MachineId, a: int, b: int,
                             once: map<MachineId, MiningMachine>, twice: map<MachineId, MiningMachine>)
    requires machine in cat
    requires once == cat[machine := cat[machine].(availableShares := cat[machine].availableShares - a)]
    requires twice == once[machine := once[machine].(availableShares := once[machine].availableShares - b)]
    ensures twice == cat[machine := cat[machine].(availableShares := cat[machine].availableShares - (a + b))]
  {
  }

  /** A successful purchase of `n` shares changes the Balances and the
      catalog by exactly two map updates: the buyer's admin debit at the
      share price and the machine's availability. */
  lemma PurchaseUpdates(s: State, user: UserId, machine: MachineId, n: int, now: Time, r: ShareBuy)
    requires PurchaseShares(s, user, machine, n, now) == Ok(r)
    ensures user in s.balances && machine in s.catalog
    ensures r.state.balances == s.balances[user := AddToAdmin(s.balances[user], -ShareConfig.ShareValue(s.catalog[machine], n))]
    ensures r.state.catalog == s.catalog[machine := s.catalog[machine].(availableShares := s.catalog[machine].availableShares - n)]
  {
  }

  /** `updateShareProfits` selects active holdings of the machine whose clock
      is more than a day old (`lastProfitUpdate < now - 24h`). */
  predicate DueForShareProfit(p: SharePurchase, machine: MachineId, now: Time) {
    p.machine == machine && p.status == Active && p.lastProfitUpdate < now - DAY_MS
  }

  /** What the run owes `user`, summed over selected holdings from index `i` on. */
  function ProfitDue(shares: seq<SharePurchase>, i: nat, user: UserId, machine: MachineId, now: Time): real
    requires i <= |shares|
    decreases |shares| - i
  {
    if i == |shares| then 0.0
    else (if DueForShareProfit(shares[i], machine, now) && shares[i].user == user then StakeProfit(shares[i]) else 0.0)
         + ProfitDue(shares, i + 1, user, machine, now)
  }

  /** Credits the mining bucket of each selected holding's owner in turn. */
  function CreditDue(bals: map<UserId, Balance>, shares: seq<SharePurchase>, i: nat, machine: MachineId, now: Time)
    : (r: map<UserId, Balance>)
    requires i <= |shares|
    requires forall j :: i <= j < |shares| && DueForShareProfit(shares[j], machine, now) ==> shares[j].user in bals
    ensures r.Keys == bals.Keys
    ensures forall u :: u in bals ==>
      && r[u].miningBalance == bals[u].miningBalance + ProfitDue(shares, i, u, machine, now)
      && r[u].adminAdd == bals[u].adminAdd
      && (Consistent(bals[u]) ==> Consistent(r[u]))
      && r[u].user == bals[u].user && r[u].lastUpdated == bals[u].lastUpdated
    decreases |shares| - i
  {
    if i == |shares| then bals
    else
      var p := shares[i];
      var next := if DueForShareProfit(p, machine, now)
                  then bals[p.user := AddToMining(bals[p.user], StakeProfit(p))] else bals;
      CreditDue(next, shares, i + 1, machine, now)
  }

  /** Every selected holding's clock set to `now`; the rest untouched.
      Afterwards no holding is selected, only clocks have moved, and none
      has moved backwards. */
  function MarkUpdated(shares: seq<SharePurchase>, machine: MachineId, now: Time): (r: seq<SharePurchase>)
    ensures |r| == |shares|
    ensures forall j :: 0 <= j < |r| ==> r[j].(lastProfitUpdate := shares[j].lastProfitUpdate) == shares[j]
    ensures forall j :: 0 <= j < |r| ==> shares[j].lastProfitUpdate <= r[j].lastProfitUpdate
    ensures forall j :: 0 <= j < |r| ==> !DueForShareProfit(r[j], machine, now)
    ensures forall j :: 0 <= j < |r| && !DueForShareProfit(shares[j], machine, now) ==> r[j] == shares[j]
    ensures forall j :: 0 <= j < |r| && DueForShareProfit(shares[j], machine, now) ==> r[j].lastProfitUpdate == now
  {
    seq(|shares|, j requires 0 <= j < |shares| =>
      if DueForShareProfit(shares[j], machine, now) then shares[j].(lastProfitUpdate := now) else shares[j])
  }

  /** `updateShareProfits`: every selected holding pays its full monthly
      profit into its owner's mining bucket and restarts its clock. One
      selected holding without a Balance aborts the whole run. No record is
      logged. */
  function UpdateShareProfits(s: State, machine: MachineId, now: Time): (r: Result<State>)
    ensures r.Ok? <==> forall j :: 0 <= j < |s.shares| && DueForShareProfit(s.shares[j], machine, now)
                                   ==> s.shares[j].user in s.balances
    ensures r.Ok? ==>
      && r.value.balances.Keys == s.balances.Keys
      && (forall u :: u in s.balances ==>
            r.value.balances[u].miningBalance == s.balances[u].miningBalance + ProfitDue(s.shares, 0, u, machine, now)
            && r.value.balances[u].adminAdd == s.balances[u].adminAdd)
      && r.value.shares == MarkUpdated(s.shares, machine, now)
      && (forall j :: 0 <= j < |r.value.shares| ==> !DueForShareProfit(r.value.shares[j], machine, now))
      && r.value.txs == s.txs && r.value.units == s.units && r.value.catalog == s.catalog
    ensures r.Ok? ==> r.value == s.(balances := r.value.balances, shares := r.value.shares)
    ensures r.Ok? && AllConsistent(s) ==> AllConsistent(r.value)
  {
    if exists j :: 0 <= j < |s.shares| && DueForShareProfit(s.shares[j], machine, now) && s.shares[j].user !in s.balances
    then Err(RuntimeFault)
    else Ok(s.(balances := CreditDue(s.balances, s.shares, 0, machine, now), shares := MarkUpdated(s.shares, machine, now)))
  }

  lemma {:induction false} NothingDueNothingOwed(shares: seq<SharePurchase>, i: nat, user: UserId, machine: MachineId, now: Time)
    requires i <= |shares|
    requires forall j :: i <= j < |shares| ==> !DueForShareProfit(shares[j], machine, now)
    ensures ProfitDue(shares, i, user, machine, now) == 0.0
    decreases |shares| - i
  {
    if i < |shares| {
      NothingDueNothingOwed(shares, i + 1, user, machine, now);
    }
  }

  /** Running the profit update again at the same instant selects nothing and
      changes nothing. */
  lemma {:induction false} UpdateShareProfitsIdempotent(s: State, machine: MachineId, now: Time)
    requires UpdateShareProfits(s, machine, now).Ok?
    ensures UpdateShareProfits(UpdateShareProfits(s, machine, now).value, machine, now)
            == UpdateShareProfits(s, machine, now)
  {
    var s1 := UpdateShareProfits(s, machine, now).value;
    var s2 := UpdateShareProfits(s1, machine, now).value;
    forall u | u in s1.balances ensures s2.balances[u] == s1.balances[u] {
      NothingDueNothingOwed(s1.shares, 0, u, machine, now);
      var b1 := s1.balances[u];
      var c := CreditDue(s1.balances, s1.shares, 0, machine, now);
      assert c[u].miningBalance == b1.miningBalance && c[u].adminAdd == b1.adminAdd;
      assert Consistent(b1) ==> Consistent(c[u]);
      NoCreditKeepsRecord(s1.balances, s1.shares, machine, now, u);
    }
    assert s2.shares == s1.shares;
    assert s2.balances == s1.balances;
  }

  /** With nothing selected the credit pass returns each record unchanged. */
  lemma {:induction false} NoCreditKeepsRecord(bals: map<UserId, Balance>, shares: seq<SharePurchase>, machine: MachineId, now: Time, u: UserId)
    requires u in bals
    requires forall j :: 0 <= j < |shares| ==> !DueForShareProfit(shares[j], machine, now)
    ensures CreditDue(bals, shares, 0, machine, now)[u] == bals[u]
  {
    NoCreditFrom(bals, shares, 0, machine, now);
  }

  lemma {:induction false} NoCreditFrom(bals: map<UserId, Balance>, shares: seq<SharePurchase>, i: nat, machine: MachineId, now: Time)
    requires i <= |shares|
    requires forall j :: i <= j < |shares| ==> !DueForShareProfit(shares[j], machine, now)
    ensures CreditDue(bals, shares, i, machine, now) == bals
    decreases |shares| - i
  {
    if i < |shares| {
      NoCreditFrom(bals, shares, i + 1, machine, now);
    }
  }
}

=== FILE: share_purchase.dfy ===
/** The SharePurchase document: a user's stake in a share-based machine. */
module SharePurchaseModel {
  import opened Common

  /** `lastProfitUpdate` and `purchaseDate` default to the creation time, so
      they are always present. The accrual code also writes
      `totalProfitEarned`, which the schema does not declare; it is not kept. */
  datatype SharePurchase = SharePurchase(
    user: UserId,
    machine: MachineId,
    numberOfShares: int,
    pricePerShare: real,
    profitPerShare: real,
    totalInvestment: real,
    purchaseDate: Time,
    lastProfitUpdate: Time,
    status: HoldingStatus)

  /** Schema validation: ids required, `numberOfShares` required with `min: 1`. */
  predicate Valid(p: SharePurchase) {
    p.user != "" && p.machine != "" && p.numberOfShares >= 1
  }

  /** A stake created with the schema defaults for status and both dates. */
  function NewStake(user: UserId, machine: MachineId, shares: int, pricePerShare: real,
                    profitPerShare: real, totalInvestment: real, now: Time): (p: SharePurchase)
    ensures p.status == Active && p.purchaseDate == now && p.lastProfitUpdate == now
    ensures p.user == user && p.machine == machine && p.numberOfShares == shares
    ensures user != "" && machine != "" && shares >= 1 ==> Valid(p)
  {
    SharePurchase(user, machine, shares, pricePerShare, profitPerShare, totalInvestment, now, now, Active)
  }

  /** A stake's full monthly profit, `numberOfShares * profitPerShare`. */
  function StakeProfit(p: SharePurchase): (r: real)
    ensures p.numberOfShares >= 0 && p.profitPerShare >= 0.0 ==> r >= 0.0
  {
    p.numberOfShares as real * p.profitPerShare
  }
}

=== FILE: store.dfy ===
/** The database as one immutable value: every handler maps a State to a new
    State or fails and leaves it as it was. */
module Store {
  import opened Common
  import opened BalanceModel
  import opened UserMachineModel
  import opened MiningMachineModel
  import opened SharePurchaseModel
  import Tx = TransactionModel

  /** `emails` is the `User.findOne({ email })` index; `units` are keyed by
      holding id and `nextUnitId` is the next id to hand out; a share holding's
      and a transaction's id is its position in `shares` and `txs`. */
  datatype State = State(
    users: set<UserId>,
    emails: map<string, UserId>,
    catalog: map<MachineId, MiningMachine>,
    balances: map<UserId, Balance>,
    units: map<nat, UserMachine>,
    nextUnitId: nat,
    shares: seq<SharePurchase>,
    txs: seq<Tx.Transaction>)

  /** Every stored Balance satisfies the sum invariant. */
  predicate AllConsistent(s: State) {
    forall u :: u in s.balances ==> Consistent(s.balances[u])
  }

  /** Unit holding ids below `nextUnitId` are the ones already handed out. */
  predicate FreshIds(s: State) {
    forall k :: k in s.units ==> k < s.nextUnitId
  }

  /** Appends the persisted form of a draft to the log. */
  function Log(s: State, d: Tx.TxDraft): (r: State)
    ensures r.txs == s.txs + [Tx.Persist(d)]
    ensures r.balances == s.balances && r.units == s.units && r.shares == s.shares
    ensures r.catalog == s.catalog && r.users == s.users && r.nextUnitId == s.nextUnitId
  {
    s.(txs := s.txs + [Tx.Persist(d)])
  }

  /** `count` copies of holding `h` under the ids `first .. first + count - 1`. */
  function AddUnits(units: map<nat, UserMachine>, first: nat, count: nat, h: UserMachine): (r: map<nat, UserMachine>)
    ensures forall k :: k in r <==> k in units || first <= k < first + count
    ensures forall k :: first <= k < first + count ==> r[k] == h
    ensures forall k :: k in units && !(first <= k < first + count) ==> r[k] == units[k]
  {
    units + map k | k in IdRange(first, count) :: h
  }

  /** The ids `first .. first + count - 1`, fresh when `first` is `nextUnitId`. */
  function IdRange(first: nat, count: nat): (ids: set<nat>)
    ensures forall k :: k in ids <==> first <= k < first + count
    ensures |ids| == count
    decreases count
  {
    if count == 0 then {} else IdRange(first, count - 1) + {first + count - 1}
  }

  /** Adding `count` holdings under fresh ids grows the collection by exactly
      `count` and keeps every existing holding. */
  lemma {:induction false} AddUnitsGrowsByCount(s: State, count: nat, h: UserMachine)
    requires FreshIds(s)
    ensures |AddUnits(s.units, s.nextUnitId, count, h).Keys| == |s.units.Keys| + count
  {
    var r := AddUnits(s.units, s.nextUnitId, count, h);
    var newIds := IdRange(s.nextUnitId, count);
    assert r.Keys == s.units.Keys + newIds;
    assert s.units.Keys !! newIds;
  }
}

=== FILE: transaction.dfy ===
/** The Transaction document (model/withdrawals.js) and the richer drafts the
    controllers build before saving it. */
module TransactionModel {
  import opened Common

  /** The `type` enum. */
  datatype TxType = Withdrawal | Profit | MachinePurchase | MachineSale | SharePurchase | ShareProfit

  /** The `status` enum; `Pending` is the schema default. */
  datatype TxStatus = Pending | Approved | Rejected | Completed

  const DEFAULT_STATUS: TxStatus := Pending

  function TypeName(t: TxType): string {
    match t
    case Withdrawal => "withdrawal"
    case Profit => "profit"
    case MachinePurchase => "MACHINE_PURCHASE"
    case MachineSale => "MACHINE_SALE"
    case SharePurchase => "SHARE_PURCHASE"
    case ShareProfit => "SHARE_PROFIT"
  }

  /** The enum validator for `type`: a string is accepted exactly when it is
      one of the six declared names. */
  function ParseType(s: string): (r: Option<TxType>)
    ensures r.Some? ==> TypeName(r.value) == s
    ensures r.None? ==> forall t: TxType :: TypeName(t) != s
  {
    if s == "withdrawal" then Some(Withdrawal)
    else if s == "profit" then Some(Profit)
    else if s == "MACHINE_PURCHASE" then Some(MachinePurchase)
    else if s == "MACHINE_SALE" then Some(MachineSale)
    else if s == "SHARE_PURCHASE" then Some(SharePurchase)
    else if s == "SHARE_PROFIT" then Some(ShareProfit)
    else None
  }

  function StatusName(st: TxStatus): string {
    match st
    case Pending => "pending"
    case Approved => "approved"
    case Rejected => "rejected"
    case Completed => "completed"
  }

  /** The enum validator for `status`. */
  function ParseStatus(s: string): (r: Option<TxStatus>)
    ensures r.Some? ==> StatusName(r.value) == s
    ensures r.None? ==> forall st: TxStatus :: StatusName(st) != s
  {
    if s == "pending" then Some(Pending)
    else if s == "approved" then Some(Approved)
    else if s == "rejected" then Some(Rejected)
    else if s == "completed" then Some(Completed)
    else None
  }

  /** Every declared type name is accepted and parses back to itself. */
  lemma TypeNamesRoundTrip(t: TxType)
    ensures ParseType(TypeName(t)) == Some(t)
  {
  }

  /** Every declared status name is accepted and parses back to itself. */
  lemma StatusNamesRoundTrip(st: TxStatus)
    ensures ParseStatus(StatusName(st)) == Some(st)
  {
  }

  /** The fields the schema declares, which are the only ones a save keeps.
      `details` (a display string) is not modelled. */
  datatype Transaction = Transaction(
    user: UserId,
    amount: real,
    transactionDate: Time,
    txType: TxType,
    status: TxStatus,
    adminComment: Option<string>,
    processedBy: Option<UserId>,
    processedAt: Option<Time>)

  /** Schema validation: `user` and `amount` are required (amount is always a
      number here), `type` and `status` range over their enums by construction. */
  predicate Valid(t: Transaction) {
    t.user != ""
  }

  /** A fresh record: no admin decision recorded yet. */
  function NewRecord(user: UserId, amount: real, now: Time, txType: TxType, status: TxStatus): (t: Transaction)
    ensures t.user == user && t.amount == amount && t.txType == txType && t.status == status
    ensures t.processedBy.None? && t.processedAt.None? && t.adminComment.None?
  {
    Transaction(user, amount, now, txType, status, None, None, None)
  }

  /** The balance snapshot controllers attach to a record. */
  datatype Snapshot = Snapshot(balanceBefore: real, balanceAfter: real)

  /** The metadata controllers attach to a record, one shape per kind. */
  datatype Metadata =
    | NoMetadata
    | PurchaseMeta(machineId: MachineId, quantity: int, pricePerUnit: real)
    | SaleMeta(machineId: MachineId, originalPrice: real, deduction: real, sellingPrice: real)
    | SharePurchaseMeta(machineId: MachineId, shares: int, pricePerShare: real, profitPerShare: real)
    | ShareProfitMeta(shareId: nat, machineId: MachineId, numberOfShares: int, profitPerShare: real, daysSinceLastUpdate: int)

  /** What a controller hands to `Transaction.create`/`new Transaction`: the
      declared fields plus `balanceBefore`, `balanceAfter` and `metadata`,
      which the schema does not declare. */
  datatype TxDraft = TxDraft(record: Transaction, snapshot: Option<Snapshot>, metadata: Metadata)

  /** Saving under the schema's strict mode keeps the declared fields only. */
  function Persist(d: TxDraft): Transaction {
    d.record
  }

  /** The stored log cannot tell apart two drafts that differ only in their
      snapshot or metadata: those fields never reach the database. */
  lemma SnapshotNotStored(d: TxDraft, snap: Option<Snapshot>, meta: Metadata)
    ensures Persist(d.(snapshot := snap, metadata := meta)) == Persist(d)
  {
  }

  /** The withdrawal decision `pending -> approved | rejected`: the status is
      overwritten and the deciding admin, comment and time are recorded. */
  function Decide(t: Transaction, status: TxStatus, admin: UserId, comment: Option<string>, now: Time): (r: Transaction)
    ensures r.status == status && r.processedBy == Some(admin) && r.processedAt == Some(now)
    ensures r.adminComment == comment
    ensures r.user == t.user && r.amount == t.amount && r.txType == t.txType
    ensures r.transactionDate == t.transactionDate
  {
    t.(status := status, adminComment := comment, processedBy := Some(admin), processedAt := Some(now))
  }
}

=== FILE: unit_trade.dfy ===
/** Buying and selling whole machines (controller/usermachine/transactionController.js). */
module UnitTrade {
  import opened Common
  import opened BalanceModel
  import opened UserMachineModel
  import opened MiningMachineModel
  import opened Store
  import opened Retry
  import Tx = TransactionModel

  /** The request body of a purchase; an omitted `quantity` means 1. */
  datatype PurchaseRequest = PurchaseRequest(userId: UserId, machineId: MachineId, quantity: Option<int>)

  function Quantity(req: PurchaseRequest): int {
    QuantityOrOne(req.quantity)
  }

  /** A committed purchase: the new state, the record as the controller built
      it, and the id of the first of the new holdings. */
  datatype Purchase = Purchase(state: State, receipt: Tx.TxDraft, firstId: nat)

  /** A committed sale: the new state and the record as the controller built it. */
  datatype Sale = Sale(state: State, receipt: Tx.TxDraft)

  /** The share of the catalog price a sale pays back, and the share it keeps. */
  const RESALE_RATE: real := 0.9
  const DEDUCTION_RATE: real := 0.1

  /** The handler's own check before any database access. */
  predicate WellFormed(req: PurchaseRequest) {
    req.userId != "" && req.machineId != "" && Quantity(req) >= 1
  }

  function PurchaseCost(m: MiningMachine, quantity: int): real {
    m.priceRange * quantity as real
  }

  /** The unit of work the purchase hands to the retry wrapper. It checks the
      stored `totalBalance` against the cost but debits `adminAdd` alone, so
      `adminAdd` goes negative when mining funds cover part of the cost. */
  function PurchaseWork(s: State, req: PurchaseRequest, now: Time): (r: Result<Purchase>)
    requires Quantity(req) >= 1
    ensures r.Ok? <==>
      && req.userId in s.users && req.machineId in s.catalog && req.userId in s.balances
      && s.balances[req.userId].totalBalance >= PurchaseCost(s.catalog[req.machineId], Quantity(req))
    ensures r.Err? ==> r.error == NotFound || r.error == InsufficientFunds
    ensures r.Ok? ==> r.value.state.balances.Keys == s.balances.Keys
    ensures r.Ok? ==>
      var m := s.catalog[req.machineId];
      var cost := PurchaseCost(m, Quantity(req));
      var b := s.balances[req.userId];
      var s' := r.value.state;
      var b' := s'.balances[req.userId];
      && b'.adminAdd == b.adminAdd - cost && b'.miningBalance == b.miningBalance
      && Consistent(b') && b'.lastUpdated == now
      && (forall u :: u in s.balances && u != req.userId ==> s'.balances[u] == s.balances[u])
      && r.value.firstId == s.nextUnitId && s'.nextUnitId == s.nextUnitId + Quantity(req)
      && (forall k :: k in s'.units <==> k in s.units || s.nextUnitId <= k < s.nextUnitId + Quantity(req))
      && (forall k :: s.nextUnitId <= k < s.nextUnitId + Quantity(req) ==>
            s'.units[k] == NewHolding(req.userId, req.machineId, now, Some(SnapshotOf(m))))
      && (FreshIds(s) ==> FreshIds(s') && forall k :: k in s.units ==> s'.units[k] == s.units[k])
      && r.value.receipt.record == Tx.NewRecord(req.userId, cost, now, Tx.MachinePurchase, Tx.Completed)
      && r.value.receipt.snapshot == Some(Tx.Snapshot(b.totalBalance, b.totalBalance - cost))
      && r.value.receipt.metadata == Tx.PurchaseMeta(req.machineId, Quantity(req), m.priceRange)
      && s'.txs == s.txs + [Tx.Persist(r.value.receipt)]
      && s'.catalog == s.catalog && s'.shares == s.shares && s'.users == s.users
    ensures r.Ok? ==>
      var s' := r.value.state;
      s' == s.(balances := s'.balances, units := s'.units, nextUnitId := s'.nextUnitId, txs := s'.txs)
    ensures r.Ok? && AllConsistent(s) ==> AllConsistent(r.value.state)
  {
    if req.userId !in s.users || req.machineId !in s.catalog || req.userId !in s.balances then Err(NotFound)
    else
      var m := s.catalog[req.machineId];
      var b := s.balances[req.userId];
      var cost := PurchaseCost(m, Quantity(req));
      if b.totalBalance < cost then Err(InsufficientFunds)
      else
        var receipt := Tx.TxDraft(
          Tx.NewRecord(req.userId, cost, now, Tx.MachinePurchase, Tx.Completed),
          Some(Tx.Snapshot(b.totalBalance, b.totalBalance - cost)),
          Tx.PurchaseMeta(req.machineId, Quantity(req), m.priceRange));
        var holding := NewHolding(req.userId, req.machineId, now, Some(SnapshotOf(m)));
        var s' := Log(s, receipt).(
          balances := s.balances[req.userId := Stamp(AddToAdmin(b, -cost), now)],
          units := AddUnits(s.units, s.nextUnitId, Quantity(req), holding),
          nextUnitId := s.nextUnitId + Quantity(req));
        Ok(Purchase(s', receipt, s.nextUnitId))
  }

  /** The holdings a purchase creates pass the UserMachine schema whenever
      the request is well formed and the catalog machine is valid. */
  lemma PurchasedHoldingsValid(s: State, req: PurchaseRequest, now: Time)
    requires Quantity(req) >= 1
    requires PurchaseWork(s, req, now).Ok? && WellFormed(req)
    requires MiningMachineModel.Valid(s.catalog[req.machineId])
    ensures forall k :: s.nextUnitId <= k < s.nextUnitId + Quantity(req) ==>
      UserMachineModel.Valid(PurchaseWork(s, req, now).value.state.units[k])
  {
  }

  /** One attempt of the purchase transaction: the unit of work's own error is
      thrown without the transient label; otherwise the commit meets a write
      conflict exactly when `conflict(k)` holds. */
  function PurchaseAttempt(work: Result<Purchase>, conflict: nat -> bool, k: nat): Attempt<Purchase> {
    if work.Err? then Threw(work.error, false)
    else if conflict(k) then Threw(TransientConflict, true)
    else Succeeded(work.value)
  }

  /** `purchaseAndAssignMachine`: request check, then the unit of work under
      the retry wrapper. A failed check of the unit of work is never retried;
      a success is the unit of work's result; only three conflicts in a row
      make a feasible purchase fail. */
  function PurchaseAndAssign(s: State, req: PurchaseRequest, now: Time, conflict: nat -> bool): (r: Result<Purchase>)
    ensures !WellFormed(req) ==> r == Err(ValidationError)
    ensures WellFormed(req) && PurchaseWork(s, req, now).Err? ==> r == PurchaseWork(s, req, now)
    ensures r.Ok? ==> WellFormed(req) && r == PurchaseWork(s, req, now)
    ensures WellFormed(req) && PurchaseWork(s, req, now).Ok? ==>
      (r.Ok? <==> !(conflict(1) && conflict(2) && conflict(3)))
    ensures r.Err? && r.error == TransientConflict ==> conflict(1) && conflict(2) && conflict(3)
  {
    if !WellFormed(req) then Err(ValidationError)
    else
      var work := PurchaseWork(s, req, now);
      var run := ExecuteWithRetry(k => PurchaseAttempt(work, conflict, k));
      assert run.attempts == 1 || run.attempts == 2 || run.attempts == 3;
      run.result
  }

  /** `sellUserMachine`. The price paid back is read from the live catalog
      machine, not from the holding's snapshot; a dangling catalog or user
      reference raises a TypeError. */
  function SellUserMachine(s: State, id: nat, now: Time): (r: Result<Sale>)
    ensures id !in s.units ==> r == Err(NotFound)
    ensures id in s.units && s.units[id].status != Active ==> r == Err(InvalidState)
    ensures r.Ok? <==>
      && id in s.units && s.units[id].status == Active && s.units[id].machine in s.catalog
      && s.units[id].user in s.users && s.units[id].user in s.balances
    ensures r.Ok? ==> r.value.state.balances.Keys == s.balances.Keys
    ensures r.Ok? ==>
      var h := s.units[id];
      var price := s.catalog[h.machine].priceRange;
      var b := s.balances[h.user];
      var s' := r.value.state;
      var b' := s'.balances[h.user];
      && b'.adminAdd == b.adminAdd + RESALE_RATE * price && b'.miningBalance == b.miningBalance
      && Consistent(b') && b'.lastUpdated == now
      && (forall u :: u in s.balances && u != h.user ==> s'.balances[u] == s.balances[u])
      && s'.units == s.units[id := h.(status := Inactive)]
      && r.value.receipt.record == Tx.NewRecord(h.user, RESALE_RATE * price, now, Tx.MachineSale, Tx.Completed)
      && r.value.receipt.snapshot == Some(Tx.Snapshot(b.totalBalance, b.totalBalance + RESALE_RATE * price))
      && r.value.receipt.metadata.SaleMeta?
      && r.value.receipt.metadata.sellingPrice + r.value.receipt.metadata.deduction == price
      && r.value.receipt.metadata.originalPrice == price
      && s'.txs == s.txs + [Tx.Persist(r.value.receipt)]
      && s'.catalog == s.catalog && s'.shares == s.shares && s'.nextUnitId == s.nextUnitId
    ensures r.Ok? ==>
      var s' := r.value.state;
      s' == s.(balances := s'.balances, units := s'.units, txs := s'.txs)
    ensures r.Ok? && AllConsistent(s) ==> AllConsistent(r.value.state)
  {
    if id !in s.units then Err(NotFound)
    else
      var h := s.units[id];
      if h.status != Active then Err(InvalidState)
      else if h.machine !in s.catalog || h.user !in s.users then Err(RuntimeFault)
      else if h.user !in s.balances then Err(NotFound)
      else
        var price := s.catalog[h.machine].priceRange;
        var selling := price * RESALE_RATE;
        var deduction := price * DEDUCTION_RATE;
        var b := s.balances[h.user];
        var receipt := Tx.TxDraft(
          Tx.NewRecord(h.user, selling, now, Tx.MachineSale, Tx.Completed),
          Some(Tx.Snapshot(b.totalBalance, b.totalBalance + selling)),
          Tx.SaleMeta(h.machine, price, deduction, selling));
        var s' := Log(s, receipt).(
          balances := s.balances[h.user := Stamp(AddToAdmin(b, selling), now)],
          units := s.units[id := h.(status := Inactive)]);
        Ok(Sale(s', receipt))
  }

  /** The purchase succeeds whenever the stored total covers the cost, even
      when `adminAdd` alone does not; the debit then drives `adminAdd` below
      zero while the mining bucket is left as it was. */
  lemma AdminBucketCanGoNegative(s: State, req: PurchaseRequest, now: Time)
    requires WellFormed(req) && req.userId in s.users && req.machineId in s.catalog && req.userId in s.balances
    requires s.balances[req.userId].adminAdd < PurchaseCost(s.catalog[req.machineId], Quantity(req))
                                              <= s.balances[req.userId].totalBalance
    ensures PurchaseWork(s, req, now).Ok?
    ensures PurchaseWork(s, req, now).value.state.balances[req.userId].adminAdd < 0.0
  {
  }

  /** A holding cannot be sold twice: the first sale flips it to inactive. */
  lemma SecondSaleRefused(s: State, id: nat, now: Time, later: Time)
    requires SellUserMachine(s, id, now).Ok?
    ensures SellUserMachine(SellUserMachine(s, id, now).value.state, id, later) == Err(InvalidState)
  {
  }

  /** Buying one machine and selling it back straight away costs the buyer
      exactly the 10% deduction, all of it from `adminAdd`. */
  lemma {:induction false} BuyThenSellCostsDeduction(s: State, user: UserId, machine: MachineId, now: Time, later: Time)
    requires user != "" && machine != ""
    requires PurchaseWork(s, PurchaseRequest(user, machine, None), now).Ok?
    ensures
      var p := PurchaseWork(s, PurchaseRequest(user, machine, None), now).value;
      var sale := SellUserMachine(p.state, p.firstId, later);
      var price := s.catalog[machine].priceRange;
      && sale.Ok?
      && sale.value.state.balances[user].adminAdd == s.balances[user].adminAdd - DEDUCTION_RATE * price
      && sale.value.state.balances[user].miningBalance == s.balances[user].miningBalance
  {
    var p := PurchaseWork(s, PurchaseRequest(user, machine, None), now).value;
    assert s.nextUnitId <= p.firstId < s.nextUnitId + 1;
    assert p.state.units[p.firstId] == NewHolding(user, machine, now, Some(SnapshotOf(s.catalog[machine])));
  }
}

=== FILE: user_machine.dfy ===
/** The UserMachine document: one whole machine instance held by a user. */
module UserMachineModel {
  import opened Common

  /** The catalog terms copied into a holding. The schema marks each of them
      `required`; `images` is not modelled. */
  datatype MachineSnapshot = MachineSnapshot(
    machineName: string,
    hashrate: string,
    powerConsumption: real,
    priceRange: real,
    coinsMined: string,
    monthlyProfit: real,
    description: string)

  /** `snapshot` is `None` when a controller supplies none of the copied
      fields. `lastProfitUpdate` is written by the accrual code; see
      `StoredAsWritten` for what the declared schema keeps of it. */
  datatype UserMachine = UserMachine(
    user: UserId,
    machine: MachineId,
    assignedDate: Time,
    status: HoldingStatus,
    monthlyProfitAccumulated: real,
    lastProfitUpdate: Option<Time>,
    snapshot: Option<MachineSnapshot>)

  /** Mongoose's `required` validator refuses a missing value and, for a
      string, the empty string. */
  predicate ValidSnapshot(m: MachineSnapshot) {
    m.machineName != "" && m.hashrate != "" && m.coinsMined != "" && m.description != ""
  }

  /** Schema validation of a holding: ids and every snapshot field present. */
  predicate Valid(h: UserMachine) {
    h.user != "" && h.machine != "" && h.snapshot.Some? && ValidSnapshot(h.snapshot.value)
  }

  /** A holding as created by the purchase and assignment handlers, with the
      schema defaults `status = active` and `monthlyProfitAccumulated = 0`. */
  function NewHolding(user: UserId, machine: MachineId, now: Time, snapshot: Option<MachineSnapshot>): (h: UserMachine)
    ensures h.status == Active && h.monthlyProfitAccumulated == 0.0
    ensures h.assignedDate == now && h.lastProfitUpdate.None?
    ensures h.user == user && h.machine == machine && h.snapshot == snapshot
  {
    UserMachine(user, machine, now, Active, 0.0, None, snapshot)
  }

  /** `lastProfitUpdate || assignedDate`: the accrual clock of a holding. */
  function LastUpdate(h: UserMachine): Time {
    match h.lastProfitUpdate
    case Some(t) => t
    case None => h.assignedDate
  }

  /** What a save keeps under the declared schema, which has no
      `lastProfitUpdate` path: strict mode drops the assignment. */
  function StoredAsWritten(h: UserMachine): (r: UserMachine)
    ensures r.lastProfitUpdate.None? && LastUpdate(r) == h.assignedDate
    ensures r.monthlyProfitAccumulated == h.monthlyProfitAccumulated && r.status == h.status
  {
    h.(lastProfitUpdate := None)
  }

  /** A holding missing its snapshot fails validation, whatever else it holds. */
  lemma SnapshotRequired(h: UserMachine)
    requires h.snapshot.None?
    ensures !Valid(h)
  {
  }
}

=== FILE: withdrawal_flow.dfy ===
/** The routed withdrawal workflow (controller/withdrawalContoller.js): a
    request records a pending withdrawal, an admin decision approves or
    rejects it. */
module WithdrawalFlow {
  import opened Common
  import opened BalanceModel
  import opened Store
  import Tx = TransactionModel

  /** A committed request: the new state, the record as built, and its id. */
  datatype Requested = Requested(state: State, receipt: Tx.TxDraft, txId: nat)

  function Max(a: real, b: real): real {
    if a >= b then a else b
  }

  /** `User.findOne({ email })`: the id of an existing user with that email. */
  function UserByEmail(s: State, email: string): Option<UserId> {
    if email in s.emails && s.emails[email] in s.users then Some(s.emails[email]) else None
  }

  /** `requestWithdrawal`. Funds are not reserved: the Balance is left as it
      is, and the record only notes the balance the request was checked against. */
  function RequestWithdrawal(s: State, email: string, amount: Option<real>, now: Time): (r: Result<Requested>)
    ensures email == "" || amount.None? || amount.value <= 0.0 ==> r == Err(ValidationError)
    ensures r.Ok? <==>
      && email != "" && amount.Some? && amount.value > 0.0
      && UserByEmail(s, email).Some? && UserByEmail(s, email).value in s.balances
      && amount.value <= s.balances[UserByEmail(s, email).value].totalBalance
    ensures r.Ok? ==>
      var user := UserByEmail(s, email).value;
      var b := s.balances[user];
      && r.value.state == Log(s, r.value.receipt)
      && r.value.txId == |s.txs| && r.value.state.txs[r.value.txId].status == Tx.Pending
      && r.value.receipt.record == Tx.NewRecord(user, amount.value, now, Tx.Withdrawal, Tx.Pending)
      && r.value.receipt.snapshot == Some(Tx.Snapshot(b.totalBalance, b.totalBalance - amount.value))
  {
    if email == "" || amount.None? || amount.value <= 0.0 then Err(ValidationError)
    else match UserByEmail(s, email)
      case None => Err(NotFound)
      case Some(user) =>
        if user !in s.balances then Err(NotFound)
        else
          var b := s.balances[user];
          if amount.value > b.totalBalance then Err(InsufficientFunds)
          else
            var receipt := Tx.TxDraft(
              Tx.NewRecord(user, amount.value, now, Tx.Withdrawal, Tx.Pending),
              Some(Tx.Snapshot(b.totalBalance, b.totalBalance - amount.value)),
              Tx.NoMetadata);
            Ok(Requested(Log(s, receipt), receipt, |s.txs|))
  }

  /** The routed approval's deduction: as much as possible from `adminAdd`,
      the remainder from `miningBalance`, then the total recomputed. */
  function DrainAdminFirst(b: Balance, amount: real): (r: Balance)
    ensures r.adminAdd == Max(b.adminAdd - amount, 0.0)
    ensures r.miningBalance == b.miningBalance - Max(amount - b.adminAdd, 0.0)
    ensures Consistent(r) && r.adminAdd + r.miningBalance == b.adminAdd + b.miningBalance - amount
    ensures Consistent(b) ==> r.totalBalance == b.totalBalance - amount
    ensures 0.0 <= b.adminAdd && 0.0 <= b.miningBalance && 0.0 <= amount <= b.adminAdd + b.miningBalance
            ==> 0.0 <= r.adminAdd && 0.0 <= r.miningBalance
    ensures r.user == b.user && r.lastUpdated == b.lastUpdated
  {
    var fromAdmin := Min(b.adminAdd, amount);
    var remaining := amount - fromAdmin;
    var mining := if remaining > 0.0 then b.miningBalance - remaining else b.miningBalance;
    WithBuckets(b, b.adminAdd - fromAdmin, mining)
  }

  /** `processWithdrawalRequest`. Only a pending record can be decided, and
      its type is not checked. Approval re-checks the amount against the
      stored total at decision time; a missing Balance is dereferenced only on
      approval, so rejection goes through without one. */
  function ProcessWithdrawalRequest(s: State, txId: nat, action: string, comment: Option<string>,
                                    admin: UserId, now: Time): (r: Result<State>)
    ensures action != "approved" && action != "rejected" ==> r == Err(ValidationError)
    ensures (action == "approved" || action == "rejected") && txId >= |s.txs| ==> r == Err(NotFound)
    ensures txId < |s.txs| && s.txs[txId].status != Tx.Pending ==> r.Err?
    ensures (action == "approved" || action == "rejected") && txId < |s.txs| && s.txs[txId].status != Tx.Pending
            ==> r == Err(InvalidState)
    ensures (action == "approved" || action == "rejected") && txId < |s.txs| && s.txs[txId].status == Tx.Pending
            && s.txs[txId].user !in s.users
            ==> r == Err(RuntimeFault)
    ensures action == "rejected" && txId < |s.txs| && s.txs[txId].status == Tx.Pending
            ==> (r.Ok? <==> s.txs[txId].user in s.users)
    ensures r.Ok? ==>
      && txId < |s.txs| && s.txs[txId].status == Tx.Pending
      && |r.value.txs| == |s.txs|
      && r.value.txs == s.txs[txId := Tx.Decide(s.txs[txId], if action == "approved" then Tx.Approved else Tx.Rejected,
                                                admin, comment, now)]
      && r.value.units == s.units && r.value.shares == s.shares && r.value.catalog == s.catalog
    ensures r.Ok? ==> r.value == s.(balances := r.value.balances, txs := r.value.txs)
    ensures r.Ok? && action == "rejected" ==> r.value.balances == s.balances
    ensures r.Ok? && action == "approved" ==>
      var t := s.txs[txId];
      && t.user in s.balances && t.amount <= s.balances[t.user].totalBalance
      && r.value.balances == s.balances[t.user := DrainAdminFirst(s.balances[t.user], t.amount)]
    ensures action == "approved" && txId < |s.txs| && s.txs[txId].status == Tx.Pending
            && s.txs[txId].user in s.users && s.txs[txId].user in s.balances
            ==> (r.Ok? <==> s.txs[txId].amount <= s.balances[s.txs[txId].user].totalBalance)
    ensures r.Ok? && AllConsistent(s) ==> AllConsistent(r.value)
  {
    if action != "approved" && action != "rejected" then Err(ValidationError)
    else if txId >= |s.txs| then Err(NotFound)
    else
      var t := s.txs[txId];
      if t.status != Tx.Pending then Err(InvalidState)
      else if t.user !in s.users then Err(RuntimeFault)
      else if action == "approved" then
        if t.user !in s.balances then Err(RuntimeFault)
        else if t.amount > s.balances[t.user].totalBalance then Err(InsufficientFunds)
        else
          Ok(s.(balances := s.balances[t.user := DrainAdminFirst(s.balances[t.user], t.amount)],
                txs := s.txs[txId := Tx.Decide(t, Tx.Approved, admin, comment, now)]))
      else
        Ok(s.(txs := s.txs[txId := Tx.Decide(t, Tx.Rejected, admin, comment, now)]))
  }

  /** The decision is one-way: once a record is approved or rejected, any
      further decision on it fails and changes nothing. */
  lemma DecisionIsFinal(s: State, txId: nat, action: string, action2: string, comment: Option<string>,
                        comment2: Option<string>, admin: UserId, admin2: UserId, now: Time, later: Time)
    requires ProcessWithdrawalRequest(s, txId, action, comment, admin, now).Ok?
    ensures ProcessWithdrawalRequest(ProcessWithdrawalRequest(s, txId, action, comment, admin, now).value,
                                     txId, action2, comment2, admin2, later).Err?
  {
  }

  /** With no other activity in between, a request can always be approved,
      and the approval takes exactly the requested amount off the total. */
  lemma {:induction false} RequestThenApprove(s: State, email: string, amount: real, admin: UserId, now: Time, later: Time)
    requires RequestWithdrawal(s, email, Some(amount), now).Ok?
    requires AllConsistent(s)
    ensures
      var q := RequestWithdrawal(s, email, Some(amount), now).value;
      var user := UserByEmail(s, email).value;
      var d := ProcessWithdrawalRequest(q.state, q.txId, "approved", None, admin, later);
      && d.Ok?
      && d.value.balances[user].totalBalance == s.balances[user].totalBalance - amount
      && d.value.txs[q.txId].status == Tx.Approved
  {
    var q := RequestWithdrawal(s, email, Some(amount), now).value;
    var user := UserByEmail(s, email).value;
    assert q.state.txs[q.txId] == Tx.NewRecord(user, amount, now, Tx.Withdrawal, Tx.Pending);
    assert q.state.balances == s.balances;
  }
}
